=== FILE: README.md ===
# disvoice-site documentation core, in Dafny

The documentation site of the disvoice library is built from one TypeDoc
document: a tree of `DocNode` records with a numeric kind, a name and an
optional ordered `children` list. Five pieces of the site compute something
from that tree, and this project models each of them:

- `findNode` (module `Docs`) resolves a URL slug such as
  `['classes', 'VoiceClient']` to a node. A leading category label
  (`classes`, `interfaces`, `enums`, `functions`, `types`) is skipped. The
  rest descends through `children` by exact name, and the first match wins.
- `getAllSearchItems` (module `Docs`) flattens the root's children into the
  search index. Each class entry is followed by its Method and Property
  members.
- `getSidebarData` (module `Docs`) builds the navigation. It starts with the
  fixed "General" group, then adds one group per category that has
  entries, in the order Classes, Interfaces, Enums, Functions, Types.
- The breadcrumb trail (module `Breadcrumbs`) of a slug.
- The static page generator (module `StaticPages`). It writes one Next.js
  page module per non-empty category and one per entity. It works on a
  `Disk` object: a map from path to content and the set of created
  directories.

Module `DocModel` holds the shared vocabulary:
- the node record;
- the closed set of TypeDoc kinds with their numeric tags;
- the five route categories in their visiting order;
- the order-preserving "root children of these kinds" filter that every
  bucket is built with.

Each imperative operation is a method proved equal to a specification
function. The site's promises are proved as lemmas about those functions:
- `FindNode` descends with a loop;
- `Traverse` and `GetAllSearchItems` push entries;
- `GetSidebarData` pushes groups;
- `WriteCategory` and `GeneratePages` write files in nested loops.

The page generator's file map is the result of applying the planned
writes, in order, to the map it started with. Lemmas then state which files
exist afterwards and what each one holds.

Stripping the category label is not transparent for every next segment.
`findNode(['classes', 'types'])` resolves the child named `types` below the
root. `findNode(['types'])` returns the root itself, because a lone
category label is answered with the root. The code is modelled as written:
`LookupStripsCategory` states the equality only when the second segment is
not a category label, and `LookupStripIsNotAlwaysTransparent` exhibits the
difference on a concrete tree.

## Model

| member | source | states |
|---|---|---|
| DocModel.Kind.Value | src/lib/docs.ts:40-65 | Every kind carries a positive TypeDoc tag no larger than 8388608 (`Event`) |
| DocModel.KindValueInjective | src/lib/docs.ts:40-65 | Distinct kinds have distinct tags, so comparing `node.kind` with a `Kind` constant is comparing kinds |
| DocModel.OfKinds | src/lib/docs.ts:164-168 | The filtered list is no longer than the input |
| DocModel.OfKindsMembers | scripts/generate-static-pages.js:45-51 | A node is in a bucket exactly when it is a root child of one of the bucket's kinds |
| DocModel.OfKindsAppend | src/lib/docs.ts:164-168 | Filtering distributes over concatenation, so kept nodes stay in root order |
| DocModel.OfKindsSingle | src/lib/docs.ts:164-168 | One node is kept exactly when its kind is selected |
| DocModel.Category.Label | scripts/generate-static-pages.js:45-51 | The category's key and route segment (`classes`, `interfaces`, `enums`, `functions`, `types`); `CategoryLabels` shows labels identify categories and `LabelHasNoSlash` that none holds `/` |
| DocModel.Category.Title | src/lib/docs.ts:170-208 | The group title of the category; `CapitalizedLabelIsTitle` shows it is the capitalised label |
| DocModel.Category.EntityKind | scripts/generate-static-pages.js:45-51 | The kind each category's bucket filters on (Class, Interface, Enum, Function, TypeAlias); buckets are characterised by `OfKindsMembers` |
| DocModel.Category.Rank | scripts/generate-static-pages.js:45-51 | Every category has a place below 5 in the visiting order, and the category at that place is itself |
| DocModel.ChildrenOf | src/lib/docs.ts:122 | The children a node iterates over: its `children` list, or none when the list is absent |
| DocModel.IsCategoryLabel | src/lib/docs.ts:75-79 | The membership test in the five category labels; characterised by `CategoryLabels` |
| DocModel.LabelIsCategoryLabel | src/lib/docs.ts:75 | Every category's route label is in the list `findNode` strips |
| DocModel.CategoryLabels | src/lib/docs.ts:75 | The stripped labels are exactly the category labels, labels identify categories, and ranks enumerate the categories |
| Docs.FirstNamed | src/lib/docs.ts:92 | `find` by name: the index of a child with that name and no earlier one, or none exactly when no child has the name |
| Docs.Resolve | src/lib/docs.ts:88-96 | The descent loop as a function: one segment per level through `children`, first name match, null on a missing list or name; characterised by `ResolveStep`, `ResolveAppend`, `ResolveNamesLastSegment` |
| Docs.Lookup | src/lib/docs.ts:71-97 | `findNode` as a function: root for an empty slug or a lone label, a leading label stripped, then the descent; characterised by `LookupStripsCategory`, `LookupNamesLastSegment`, `LookupCategoryAndName` |
| Docs.FindNode | src/lib/docs.ts:71-97 | The loop returns the specified lookup: the root for an empty slug or a lone category label, otherwise the descent result or null |
| Docs.ResolveAppend | src/lib/docs.ts:90-94 | Resolving `p + q` is resolving `p`, then `q` from the node reached; a failure stops the walk |
| Docs.ResolveNamesLastSegment | src/lib/docs.ts:90-96 | A node found by a non-empty path is named by its last segment |
| Docs.ResolveStep | src/lib/docs.ts:91-93 | One step fails without `children` or without a child of that name; otherwise it goes to the first child with that name |
| Docs.ResolveReadsOnlyChildren | src/lib/docs.ts:90-93 | Descent depends only on `children`: signatures, parameters, id and kind are never searched |
| Docs.LookupStripsCategory | src/lib/docs.ts:79-86 | A slug with a leading category label and more segments resolves its tail from the root; that equals the tail's own lookup when the second segment is not a label |
| Docs.LookupStripIsNotAlwaysTransparent | src/lib/docs.ts:79-86 | On a root with an empty `children` list, `['classes', 'types']` is null while `['types']` is the root |
| Docs.LookupNamesLastSegment | src/lib/docs.ts:88-96 | A node found for any slug other than a lone label is named by the slug's last segment |
| Docs.LookupCategoryAndName | src/lib/docs.ts:79-94 | `[label, name]` for a root child finds a root child of that name, and that very child when sibling names are distinct |
| Docs.EntriesFor | src/lib/docs.ts:119-138 | What `traverse` pushes for one node; characterised by `ClassEntries`, `OtherEntries`, `EntriesForCount` |
| Docs.MemberEntry | src/lib/docs.ts:124-129 | The entry of one member: `<Class>.<member>` at `/docs/classes/<Class>#<member>`, Method or Property; characterised by `ClassEntries` |
| Docs.MemberEntries | src/lib/docs.ts:122-130 | The entries of the Method and Property children in order; characterised by `MemberEntriesAreMembers` |
| Docs.Entries | src/lib/docs.ts:143 | `traverse` over each root child in turn; characterised by `EntriesAppend`, `EntriesCount`, `SearchItemsSplit` |
| Docs.SearchItems | src/lib/docs.ts:113-145 | The search index, empty without `children`; characterised by `SearchItemCount`, `ClassEntries`, `OtherEntries`, `SearchEntryFindsNode` |
| Docs.Traverse | src/lib/docs.ts:119-141 | `traverse` appends the node's entries: class entry then member entries in child order, or one interface/function/type entry, or nothing |
| Docs.GetAllSearchItems | src/lib/docs.ts:113-145 | The pushes yield the specified index; without `children` it is empty |
| Docs.MemberEntriesAreMembers | src/lib/docs.ts:122-130 | Member entries correspond one-to-one, in order, to the Method and Property children |
| Docs.EntriesForCount | src/lib/docs.ts:119-138 | A node contributes one entry if it is a class, interface, function or type alias, plus its member count if it is a class |
| Docs.EntriesCount | src/lib/docs.ts:119-143 | The entries of a child list number the searchable children plus the members of the classes among them |
| Docs.SearchItemCount | src/lib/docs.ts:113-145 | The index has one item per top-level Class, Interface, Function and TypeAlias plus one per Method/Property of a top-level Class, and is empty without `children` |
| Docs.EntriesAppend | src/lib/docs.ts:143 | The index of a concatenation is the concatenation of the indexes |
| Docs.SearchItemsSplit | src/lib/docs.ts:143 | Each root child contributes one contiguous block, between its earlier and later siblings' blocks |
| Docs.ClassEntries | src/lib/docs.ts:120-131 | A class block is the class entry at `/docs/classes/<Name>`, then one `<Name>.<member>` entry per Method/Property at `/docs/classes/<Name>#<member>`, kindString by kind |
| Docs.OtherEntries | src/lib/docs.ts:132-138 | Interfaces, functions and type aliases have one entry at `/docs/interfaces/`, `/docs/functions/`, `/docs/types/` plus the name; enums and other kinds have none |
| Docs.SearchEntryPath | src/lib/docs.ts:121-137 | The head entry of a searchable node routes to `/docs/<category label>/<name>` |
| Docs.SearchEntryFindsNode | src/lib/docs.ts:79-94 | The slug `[label, name]` of a searchable root child's entry leads `findNode` back to a node of that name, that child when sibling names are distinct; it is the entry's route split at `/` only for names without `/` |
| Docs.GeneralGroup | src/lib/docs.ts:154-161 | The fixed first group: General at `/docs` with Getting Started and Changelog, both of kind 0 |
| Docs.Link | src/lib/docs.ts:174 | The link of one bucket node; characterised by `GroupShape` |
| Docs.Group | src/lib/docs.ts:170-208 | The group of one category; characterised by `GroupShape` |
| Docs.Sidebar | src/lib/docs.ts:147-211 | The sidebar, empty without `children`; characterised by `SidebarLayout`, `SidebarGroupAt`, `PresentBelowMembers`, `PresentBelowOrdered` |
| Docs.Links | src/lib/docs.ts:174 | `map` gives one link per bucket node |
| Docs.GetSidebarData | src/lib/docs.ts:147-211 | The pushes yield the specified sidebar; without `children` it is empty |
| Docs.PushGroupIfAny | src/lib/docs.ts:170-176 | A category's group is appended exactly when its bucket is non-empty |
| Docs.Groups | src/lib/docs.ts:170-208 | One group per listed category |
| Docs.GroupsBelowPresent | src/lib/docs.ts:170-208 | The conditional pushes produce exactly the groups of the categories with non-empty buckets, in visiting order |
| Docs.PresentBelowMembers | src/lib/docs.ts:170-208 | A category has a group exactly when its bucket is non-empty |
| Docs.PresentBelowOrdered | src/lib/docs.ts:170-208 | Groups appear in strictly increasing visiting order, Classes, Interfaces, Enums, Functions, Types, without repeats |
| Docs.GroupShape | src/lib/docs.ts:170-207 | A group has the category's title and `/docs/<label>` path; its children are the bucket's nodes in order, titled by name, routed to `/docs/<label>/<name>`, with the bucket's kind |
| Docs.SidebarLayout | src/lib/docs.ts:147-211 | Without `children` the sidebar is empty; otherwise it is "General" then exactly the non-empty categories' groups in the fixed order |
| Docs.SidebarGroupAt | src/lib/docs.ts:154-208 | Group `i + 1` is the group of the `i`-th present category, whose bucket is non-empty |
| Docs.BucketSlugFindsNode | src/lib/docs.ts:71-97 | `[label, name]` for every bucket node leads `findNode` to a node of that name, that node when sibling names are distinct |
| Breadcrumbs.Crumbs | src/components/Breadcrumbs.tsx:9-15 | One more crumb than segments; the first is Docs at `/docs`; crumb `i + 1` is named by segment `i` |
| Breadcrumbs.Join | src/components/Breadcrumbs.tsx:13 | `join` with a separator; characterised by `JoinSnoc` and `RouteIsJoin` |
| Breadcrumbs.JoinSnoc | src/components/Breadcrumbs.tsx:13 | Joining one more part appends the separator and the part |
| Breadcrumbs.RouteIsJoin | src/components/Breadcrumbs.tsx:13 | `/docs/` plus the joined parts is the route built segment by segment |
| Breadcrumbs.CrumbRoutes | src/components/Breadcrumbs.tsx:10-14 | Crumb `i` links to the route of the first `i` segments |
| Breadcrumbs.CrumbPathsExtend | src/components/Breadcrumbs.tsx:13 | Each crumb's path is the previous one's, then `/`, then the segment, so it is a proper extension |
| Breadcrumbs.CrumbsPrefix | src/components/Breadcrumbs.tsx:9-15 | The trail of a slug prefix is a prefix of the trail |
| StaticPages.IsAlnum | scripts/generate-static-pages.js:19 | The character class `[a-zA-Z0-9]`, the test `StripOneCharacter` keeps characters by |
| StaticPages.StripNonAlnum | scripts/generate-static-pages.js:19 | The name sanitiser; characterised by `StripOneCharacter` with `StripAppend`, and by `StripShape` |
| StaticPages.StripOneCharacter | scripts/generate-static-pages.js:19 | One character is kept exactly when it is an ASCII letter or digit and removed (not replaced) otherwise; with `StripAppend` this determines the result for every name |
| StaticPages.StripShape | scripts/generate-static-pages.js:19 | The stripped name is no longer than the name and holds only ASCII letters and digits |
| StaticPages.StripKeepsAlnum | scripts/generate-static-pages.js:19 | A name of letters and digits is unchanged |
| StaticPages.StripAppend | scripts/generate-static-pages.js:19 | Stripping works character by character: it distributes over concatenation |
| StaticPages.StripIdempotent | scripts/generate-static-pages.js:19 | Stripping twice equals stripping once |
| StaticPages.ToUpperAscii | scripts/generate-static-pages.js:27 | Lower-case ASCII letters move to upper case; every other character is unchanged |
| StaticPages.Capitalize | scripts/generate-static-pages.js:27 | First character upper-cased, the rest kept; characterised by `CapitalizeShape` |
| StaticPages.CapitalizeShape | scripts/generate-static-pages.js:27 | Capitalising keeps the length, upper-cases the first character and keeps the rest |
| StaticPages.CapitalizedLabelIsTitle | scripts/generate-static-pages.js:27 | Capitalising a category label gives the category's sidebar title |
| StaticPages.ItemComponent | scripts/generate-static-pages.js:19 | The item page's component identifier; characterised by `ItemComponentShape` |
| StaticPages.ItemComponentShape | scripts/generate-static-pages.js:19 | The item identifier is the name's letters and digits followed by `Page`, so it is alphanumeric throughout |
| StaticPages.CategoryComponent | scripts/generate-static-pages.js:27 | The category page's component identifier; characterised by `CategoryComponentShape` and `CategoryComponentIsTitle` |
| StaticPages.CategoryComponentShape | scripts/generate-static-pages.js:27 | The category identifier is as long as the label plus 4, starts with the label's first character upper-cased, keeps the rest and ends in `Page` |
| StaticPages.CategoryComponentIsTitle | scripts/generate-static-pages.js:27 | A category page's identifier is the category's sidebar title followed by `Page` |
| StaticPages.ItemPageContent | scripts/generate-static-pages.js:17-22 | `createPageContent`: the module text around the item identifier and the slug literal; characterised by `PagesEmbedSlugs` and `ItemComponentShape` |
| StaticPages.CategoryPageContent | scripts/generate-static-pages.js:25-30 | `createCategoryPageContent`: the module text around the category identifier and the slug literal; characterised by `PagesEmbedSlugs` and `CategoryComponentIsTitle` |
| StaticPages.ItemSlugLiteral | scripts/generate-static-pages.js:20 | The item template's text `['<category>', '<name>']` is `SlugLiteral([category, name])`, the unescaped quoting of the two parts |
| StaticPages.CategorySlugLiteral | scripts/generate-static-pages.js:28 | The category template's literal is the array literal of `[category]` |
| StaticPages.QuotedNameSplitsSlug | scripts/generate-static-pages.js:20 | A name holding a quote is put into the literal unescaped, so the page of `x', 'y` carries the literal of the three-part slug `[category, "x", "y"]` |
| StaticPages.PagesEmbedSlugs | scripts/generate-static-pages.js:17-30 | Item pages carry `SlugLiteral([category, name])`; category pages carry `SlugLiteral([category])` |
| StaticPages.ItemPageSlugFindsNode | scripts/generate-static-pages.js:20 | An item page carries `SlugLiteral([label, name])`, and the slug `[label, name]` leads `findNode` to a root child of that name, that child when sibling names are distinct |
| StaticPages.CategoryDir | scripts/generate-static-pages.js:59 | The category directory: docs directory, `/`, label |
| StaticPages.ItemDir | scripts/generate-static-pages.js:70 | The entity directory: category directory, `/`, name |
| StaticPages.PagePath | scripts/generate-static-pages.js:63 | The page module file of a directory; `PagePathInjective` shows it determines the directory |
| StaticPages.LabelHasNoSlash | scripts/generate-static-pages.js:59 | No category label contains `/` |
| StaticPages.PagePathInjective | scripts/generate-static-pages.js:63 | Distinct directories have distinct `page.tsx` paths |
| StaticPages.CategoryDirDistinct | scripts/generate-static-pages.js:59-70 | Category directories of distinct categories differ, and none is an item directory |
| StaticPages.ItemDirInjective | scripts/generate-static-pages.js:70 | An item directory determines its category and name |
| StaticPages.PageDirInjective | scripts/generate-static-pages.js:59-73 | Distinct planned pages go to distinct directories |
| StaticPages.EntityPages | scripts/generate-static-pages.js:69-77 | One entity page per bucket item |
| StaticPages.PlannedPages | scripts/generate-static-pages.js:55-77 | The pages the generator writes, in write order; characterised by `IndexPagesPlanned`, `EntityPagesPlanned`, `EntityPagesOnlyPlanned` |
| StaticPages.PageTotal | scripts/generate-static-pages.js:53-77 | The `totalPages` counter after the first `n` categories; `PageTotalCountsPages` shows the final value is the number of planned pages |
| StaticPages.PagesBelowCount | scripts/generate-static-pages.js:53-77 | The pages of the first `n` categories number the sum of 1 plus the bucket size over their non-empty buckets |
| StaticPages.PageTotalCountsPages | scripts/generate-static-pages.js:53-80 | The reported total is the number of planned pages |
| StaticPages.PagesBelowStep | scripts/generate-static-pages.js:55 | The categories are handled in order, one block each |
| StaticPages.BlockPagesAt | scripts/generate-static-pages.js:56-77 | An empty bucket gives no page; otherwise the block is the category page, then one page per item in bucket order |
| StaticPages.BlockPagesMembers | scripts/generate-static-pages.js:56-77 | Every page of a block belongs to its category, whose bucket is non-empty; an entity page names an item of the bucket |
| StaticPages.IndexPagesPlanned | scripts/generate-static-pages.js:55-66 | A category page is planned exactly for the categories with a non-empty bucket |
| StaticPages.EntityPagesPlanned | scripts/generate-static-pages.js:69-77 | Every bucket item gets a page |
| StaticPages.EntityPagesOnlyPlanned | scripts/generate-static-pages.js:69-77 | Every planned entity page belongs to an item of its category's bucket |
| StaticPages.Writes | scripts/generate-static-pages.js:60-74 | One write per page |
| StaticPages.WritesAppend | scripts/generate-static-pages.js:55-77 | The writes of consecutive page lists are the concatenated writes |
| StaticPages.Apply | scripts/generate-static-pages.js:64-74 | The file map after writes in order, later writes overwriting earlier ones; characterised by `ApplyWritten`, `ApplyDomain`, `ApplyOverrides`, `ApplyIdempotent` |
| StaticPages.ApplyAppend | scripts/generate-static-pages.js:64-74 | Writing `a + b` is writing `a`, then `b`, for both files and directories |
| StaticPages.WritesConsistent | scripts/generate-static-pages.js:63-74 | No two planned writes give one path different contents |
| StaticPages.ApplyWritten | scripts/generate-static-pages.js:64-74 | After consistent writes, every written path holds its content |
| StaticPages.ApplyDomain | scripts/generate-static-pages.js:64-74 | The writes add exactly their paths, and untouched files keep their content |
| StaticPages.ApplyOverrides | scripts/generate-static-pages.js:64-74 | The result is the old map overridden by the written files |
| StaticPages.ApplyIdempotent | scripts/generate-static-pages.js:64-74 | Writing the same files again changes nothing, so running the generator twice gives the same map |
| StaticPages.PageWritten | scripts/generate-static-pages.js:63-74 | After all writes, each planned page's path holds that page's template |
| StaticPages.GeneratedIndexFiles | scripts/generate-static-pages.js:59-64 | `<dir>/<category>/page.tsx` holds the category template for each non-empty category |
| StaticPages.GeneratedEntityFiles | scripts/generate-static-pages.js:69-74 | `<dir>/<category>/<name>/page.tsx` holds the item template for each bucket item |
| StaticPages.DirsOfMembers | scripts/generate-static-pages.js:60-71 | The directories a list of writes ensures are exactly the writes' directories |
| StaticPages.WritesDirs | scripts/generate-static-pages.js:59-71 | The directories ensured for a list of pages are exactly those pages' directories |
| StaticPages.GeneratedDirs | scripts/generate-static-pages.js:55-77 | After generation the created directories are exactly the planned pages' directories |
| StaticPages.GeneratedCategoryDirs | scripts/generate-static-pages.js:56-60 | A category's directory is created exactly when its bucket is non-empty |
| StaticPages.GeneratedOnlyPlanned | scripts/generate-static-pages.js:53-77 | Every new file is a non-empty category's page or a bucket item's page |
| StaticPages.Disk.constructor | scripts/generate-static-pages.js:1 | The disk starts with the given files and directories |
| StaticPages.Disk.EnsureDir | scripts/generate-static-pages.js:32-36 | The directory exists afterwards; files are unchanged |
| StaticPages.Disk.WritePage | scripts/generate-static-pages.js:63-64 | In an existing directory, `page.tsx` is set to the content and nothing else changes |
| StaticPages.BlockWrites | scripts/generate-static-pages.js:59-77 | After `k` items a block has issued `k + 1` writes: the category page and one per item |
| StaticPages.BlockFilesAreWrites | scripts/generate-static-pages.js:59-77 | Updating the file map page by page, first the category page and then each item's, is applying the block's writes in order |
| StaticPages.BlockDirsAreWrites | scripts/generate-static-pages.js:59-71 | Ensuring the category directory and then each item's directory gives exactly the directories of the block's writes |
| StaticPages.BlockWritesArePlanned | scripts/generate-static-pages.js:55-77 | The writes issued for a non-empty bucket under its category key are the writes of the category's planned pages |
| StaticPages.CategoryFilesAreWrites | scripts/generate-static-pages.js:55-77 | One pass of the category loop, empty or not, applies exactly the writes of the category's planned pages |
| StaticPages.WritesBelowStep | scripts/generate-static-pages.js:55-77 | An empty bucket writes nothing and counts nothing; a non-empty one writes its block and counts 1 plus its size |
| StaticPages.WriteCategory | scripts/generate-static-pages.js:55-77 | For an empty bucket nothing is written and 0 is counted (the `continue`); otherwise the category directory and page, then each item's directory and page in bucket order, are written and 1 plus the bucket size is counted |
| StaticPages.GenerateTwice | scripts/generate-static-pages.js:38-83 | A second run on the same disk reports the same total and leaves files and directories as the first run left them |
| StaticPages.GeneratePages | scripts/generate-static-pages.js:38-81 | Without `children` nothing is written and nothing reported; otherwise the disk is the planned writes applied in order and the total is the planned page count |

## Left out

- The JSON import (`getDocs` and the generator's `require`) is not modelled. The document root is a parameter of every operation.
- Real `fs`, `path` and `console`. The file system is the `Disk` map and directory set. `path.join` is concatenation with `/`, with no normalisation of `.`, `..` or repeated separators, so an entity name holding `/` or `..` is treated as plain text. The recursive creation of parent directories by `mkdirSync` is not modelled: only the named directory is recorded. Log lines are dropped.
- `DOCS_DIR` comes from `__dirname`, which the model cannot know. It is the parameter `docsDir`.
- `DocNode.kind` is a number in the source but the closed `Kind` type here, so a node whose tag is not one of the 24 TypeDoc kinds cannot be represented. Every operation only compares kinds with the listed constants, so such a node behaves like any unselected kind.
- The fields `kindString`, `flags`, `defaultValue`, `groups`, `sources`, `comment`, `type`, `extendedTypes` and `implementedTypes` are not read by any modelled operation and are not in the node record. `signatures` and `parameters` are kept only to state that resolution never reads them.
- StaticPages.ToUpperAscii: upper-cases ASCII letters only, not the full Unicode mapping of `toUpperCase`. Category labels are ASCII, so the category templates are exact.
- Template interpolation does not escape anything, and the model writes the text as it is without parsing it. An entity name holding `'`, `\` or a line break may give a module that does not compile, or one that compiles to a different slug: `x', 'y` gives `['classes', 'x', 'y']` (shown by `StaticPages.QuotedNameSplitsSlug`), and `a\b` gives a string with a backspace in it.
- StaticPages.ItemSlugLiteral: the text `SlugLiteral([category, name])` reads back as the array `[category, name]` only for names without `'`, `\` or a line terminator; the model does not parse JavaScript literals.
- StaticPages.PagesEmbedSlugs: as above. For other names the page embeds a different slug, or no valid one.
- StaticPages.ItemPageSlugFindsNode: as above. The slug it resolves is `[label, name]`, which is the slug the page passes to `findNode` only for names without `'`, `\` or a line terminator; for `x', 'y` the page passes `['classes', 'x', 'y']`, which resolves through a root child named `x`.
- The generator computes its five buckets before the loop. `GeneratePages` filters each bucket inside the loop, which yields the same sequences, and hands `WriteCategory` the entry's key, the category's route label.
- StaticPages.CategoryDirDistinct: holds for the source only for plain entity names. `path.join` normalises, so a name that is empty, `.`, `..`, or contains `/` can make two of the source's directories coincide where the model's `/`-concatenation keeps them apart.
- StaticPages.ItemDirInjective: as above. Under `path.join` the names `a` and `a/` give one directory, and so do `""` and `.`.
- StaticPages.PageDirInjective: as above. An entity named `""` or `.` shares its category's directory, and an entity named `..` writes the docs directory's own `page.tsx`.
- StaticPages.WritesConsistent: as above. In the source, such a name's page overwrites another planned page.
- StaticPages.GeneratedIndexFiles: as above. An entity named `""` or `.` overwrites the category page. The model also keeps files and directories apart, but `existsSync` is true for a file. An entity named `page.tsx` therefore makes `ensureDir` skip creating its directory, and the following write fails, ending the run; the model does not stop.
- StaticPages.GeneratedEntityFiles: as above. The names `page.tsx`, `""`, `.`, `..` and names containing `/` are outside what the model matches.
- StaticPages.ItemDir: `path.join` normalises, so for a name that is empty, `.` or `..`, or that ends in or contains `/`, the source's directory differs from the model's `/`-concatenation (for example `""` and `.` give the category directory itself, `..` the docs directory). The model matches the source for plain names only.
- StaticPages.PageWritten: for plain entity names only. In the source a Classes entity named `""` or `.` writes its item template over the category page, so that path no longer holds the category template.
- StaticPages.GeneratedDirs: the set of directories recorded is exactly the planned pages' directories; the source's recursive `mkdirSync` also creates missing parent directories (the docs directory itself on a fresh tree, or the parents of a name containing `/`), which the model does not record.
- StaticPages.GeneratedCategoryDirs: for plain entity names only. In the source a Classes entity named `../enums` makes `ensureDir` create the Enums directory even when that bucket is empty.
- StaticPages.Disk.EnsureDir: records only the named directory. The source's `mkdirSync` with `recursive` also creates missing parents, and `existsSync` is true for a file, so when a file sits at the path no directory is created; the model keeps files and directories apart.
- The JSX rendering of the breadcrumbs, the sidebar and the search box is not modelled, nor are the pages and layouts that call these functions.

=== FILE: breadcrumbs.dfy ===
/**
 * The breadcrumb trail shown above a documentation page: "Docs", then one
 * crumb per slug segment, each linking to the route made of the segments up
 * to and including it.
 */
module Breadcrumbs {

  datatype Crumb = Crumb(name: string, path: string)

  /** The parts in order with `sep` between neighbours; empty for no parts. */
  function Join(parts: seq<string>, sep: string): string
  {
    if parts == [] then ""
    else if |parts| == 1 then parts[0]
    else parts[0] + sep + Join(parts[1..], sep)
  }

  /** The trail for `slug`: a leading Docs crumb at `/docs`, then one crumb per segment, named by it. */
  function Crumbs(slug: seq<string>): (r: seq<Crumb>)
    ensures |r| == |slug| + 1
    ensures r[0] == Crumb("Docs", "/docs")
    ensures forall i :: 0 <= i < |slug| ==> r[i + 1].name == slug[i]
  {
    [Crumb("Docs", "/docs")] +
      seq(|slug|, i requires 0 <= i < |slug| => Crumb(slug[i], "/docs/" + Join(slug[..i + 1], "/")))
  }

  /** The route of a slug built segment by segment: `/docs`, then `/<segment>` per segment. */
  function Route(parts: seq<string>): string
  {
    if parts == [] then "/docs"
    else Route(parts[..|parts| - 1]) + "/" + parts[|parts| - 1]
  }

  /** Joining one more part appends the separator and that part. */
  lemma {:induction false} JoinSnoc(parts: seq<string>, x: string, sep: string)
    requires parts != []
    ensures Join(parts + [x], sep) == Join(parts, sep) + sep + x
    decreases |parts|
  {
    var whole := parts + [x];
    assert whole[0] == parts[0];
    if |parts| == 1 {
      assert whole[1..] == [x];
    } else {
      assert whole[1..] == parts[1..] + [x];
      JoinSnoc(parts[1..], x, sep);
    }
  }

  /** `/docs/` followed by the parts joined with `/` is the segment-by-segment route. */
  lemma {:induction false} RouteIsJoin(parts: seq<string>)
    requires parts != []
    ensures Route(parts) == "/docs/" + Join(parts, "/")
    decreases |parts|
  {
    var init := parts[..|parts| - 1];
    var last := parts[|parts| - 1];
    if init == [] {
      assert parts == [last];
    } else {
      RouteIsJoin(init);
      assert parts == init + [last];
      JoinSnoc(init, last, "/");
    }
  }

  /** Crumb `i` links to the route of the first `i` segments ("Docs" to `/docs`). */
  lemma CrumbRoutes(slug: seq<string>)
    ensures forall i :: 0 <= i <= |slug| ==> Crumbs(slug)[i].path == Route(slug[..i])
  {
    forall i | 0 < i <= |slug|
      ensures Crumbs(slug)[i].path == Route(slug[..i])
    {
      RouteIsJoin(slug[..i]);
    }
    assert slug[..0] == [];
  }

  /**
   * Each crumb's path is the previous crumb's path, then `/`, then the
   * segment: every path is a proper prefix of the next one.
   */
  lemma CrumbPathsExtend(slug: seq<string>)
    ensures forall i :: 0 <= i < |slug| ==>
      Crumbs(slug)[i + 1].path == Crumbs(slug)[i].path + "/" + slug[i]
    ensures forall i :: 0 <= i < |slug| ==>
      Crumbs(slug)[i].path < Crumbs(slug)[i + 1].path
  {
    var r := Crumbs(slug);
    CrumbRoutes(slug);
    forall i | 0 <= i < |slug|
      ensures r[i + 1].path == r[i].path + "/" + slug[i]
      ensures r[i].path < r[i + 1].path
    {
      var prev := r[i].path;
      assert slug[..i + 1][..i] == slug[..i];
      assert r[i + 1].path == prev + "/" + slug[i];
      assert prev + "/" + slug[i] == prev + ("/" + slug[i]);
    }
  }

  /** The trail of a prefix of the slug is a prefix of the trail. */
  lemma CrumbsPrefix(slug: seq<string>, k: nat)
    requires k <= |slug|
    ensures Crumbs(slug[..k]) == Crumbs(slug)[..k + 1]
  {
    var a := Crumbs(slug[..k]);
    var b := Crumbs(slug)[..k + 1];
    forall i | 0 <= i < k + 1 ensures a[i] == b[i] {
      if i > 0 {
        assert slug[..k][..i] == slug[..i];
      }
    }
  }
}

=== FILE: doc_model.dfy ===
/**
 * The documentation tree produced by TypeDoc and read by the site: the node
 * record, the closed set of reflection kinds, the five route categories, and
 * the "root children of these kinds, in order" filter that every consumer
 * builds its buckets with.
 */
module DocModel {

  datatype Option<T> = None | Some(value: T)

  /** TypeDoc reflection kinds. The site compares kinds only for equality. */
  datatype Kind =
    | Project | Module | Namespace | Enum | EnumMember | Variable | Function | Class
    | Interface | Constructor | Property | Method | CallSignature | IndexSignature
    | ConstructorSignature | Parameter | TypeLiteral | TypeParameter | Accessor
    | GetSignature | SetSignature | ObjectLiteral | TypeAlias | Event
  {
    /** The numeric tag TypeDoc writes into the document for this kind. */
    function Value(): (v: int)
      ensures 1 <= v <= 8388608
    {
      match this
      case Project => 1
      case Module => 2
      case Namespace => 4
      case Enum => 8
      case EnumMember => 16
      case Variable => 32
      case Function => 64
      case Class => 128
      case Interface => 256
      case Constructor => 512
      case Property => 1024
      case Method => 2048
      case CallSignature => 4096
      case IndexSignature => 8192
      case ConstructorSignature => 16384
      case Parameter => 32768
      case TypeLiteral => 65536
      case TypeParameter => 131072
      case Accessor => 262144
      case GetSignature => 524288
      case SetSignature => 1048576
      case ObjectLiteral => 2097152
      case TypeAlias => 4194304
      case Event => 8388608
    }
  }

  /** Distinct kinds carry distinct tags, so comparing tags is comparing kinds. */
  lemma KindValueInjective(a: Kind, b: Kind)
    requires a.Value() == b.Value()
    ensures a == b
  {
  }

  /**
   * One node of the document. Only the fields the core reads are kept:
   * `children` (absent and empty are different), and the `signatures` and
   * `parameters` lists that path resolution must never search.
   */
  datatype DocNode = DocNode(
    id: int,
    name: string,
    kind: Kind,
    children: Option<seq<DocNode>>,
    signatures: Option<seq<DocNode>>,
    parameters: Option<seq<DocNode>>)

  /** The node's children, or none when the list is absent. */
  function ChildrenOf(node: DocNode): seq<DocNode>
  {
    match node.children
    case None => []
    case Some(cs) => cs
  }

  /** The nodes whose kind is one of `kinds`, in their original order. */
  function OfKinds(nodes: seq<DocNode>, kinds: set<Kind>): (r: seq<DocNode>)
    ensures |r| <= |nodes|
  {
    if nodes == [] then []
    else
      var last := nodes[|nodes| - 1];
      OfKinds(nodes[..|nodes| - 1], kinds) + (if last.kind in kinds then [last] else [])
  }

  /** The kept nodes are exactly the nodes of the selected kinds. */
  lemma {:induction false} OfKindsMembers(nodes: seq<DocNode>, kinds: set<Kind>)
    ensures forall n :: n in OfKinds(nodes, kinds) <==> n in nodes && n.kind in kinds
  {
    if nodes != [] {
      var init := nodes[..|nodes| - 1];
      OfKindsMembers(init, kinds);
      assert nodes == init + [nodes[|nodes| - 1]];
    }
  }

  function OfKind(nodes: seq<DocNode>, kind: Kind): seq<DocNode>
  {
    OfKinds(nodes, {kind})
  }

  /** Filtering distributes over concatenation: the kept nodes stay in their order. */
  lemma {:induction false} OfKindsAppend(a: seq<DocNode>, b: seq<DocNode>, kinds: set<Kind>)
    ensures OfKinds(a + b, kinds) == OfKinds(a, kinds) + OfKinds(b, kinds)
  {
    if b != [] {
      var b' := b[..|b| - 1];
      assert (a + b)[..|a + b| - 1] == a + b';
      assert (a + b)[|a + b| - 1] == b[|b| - 1];
      OfKindsAppend(a, b', kinds);
    } else {
      assert a + b == a;
    }
  }

  /** A single node is kept exactly when its kind is selected. */
  lemma OfKindsSingle(n: DocNode, kinds: set<Kind>)
    ensures OfKinds([n], kinds) == if n.kind in kinds then [n] else []
  {
    assert [n][..0] == [];
  }

  /** The five route categories, in the order every consumer visits them. */
  datatype Category = Classes | Interfaces | Enums | Functions | Types
  {
    /** The URL segment (`classes`, ...). */
    function Label(): string
    {
      match this
      case Classes => "classes"
      case Interfaces => "interfaces"
      case Enums => "enums"
      case Functions => "functions"
      case Types => "types"
    }

    /** The sidebar group title. */
    function Title(): string
    {
      match this
      case Classes => "Classes"
      case Interfaces => "Interfaces"
      case Enums => "Enums"
      case Functions => "Functions"
      case Types => "Types"
    }

    /** The kind of root child the category holds. */
    function EntityKind(): Kind
    {
      match this
      case Classes => Class
      case Interfaces => Interface
      case Enums => Enum
      case Functions => Function
      case Types => TypeAlias
    }

    /** Position in the fixed visiting order. */
    function Rank(): (k: nat)
      ensures k < CategoryCount && CategoryAt(k) == this
    {
      match this
      case Classes => 0
      case Interfaces => 1
      case Enums => 2
      case Functions => 3
      case Types => 4
    }
  }

  const CategoryCount: nat := 5

  /** The category visited `k`-th: Classes, Interfaces, Enums, Functions, Types. */
  function CategoryAt(k: nat): (c: Category)
    requires k < CategoryCount
  {
    if k == 0 then Classes
    else if k == 1 then Interfaces
    else if k == 2 then Enums
    else if k == 3 then Functions
    else Types
  }

  /** Whether `s` is one of the five category labels a slug may start with. */
  predicate IsCategoryLabel(s: string)
  {
    s in ["classes", "interfaces", "enums", "functions", "types"]
  }

  /** Every category's label is one of the listed labels. */
  lemma LabelIsCategoryLabel(c: Category)
    ensures IsCategoryLabel(c.Label())
  {
  }

  /** The label list and the category type agree, and labels identify categories. */
  lemma CategoryLabels()
    ensures forall s :: IsCategoryLabel(s) <==> exists c: Category :: c.Label() == s
    ensures forall c: Category, d: Category :: c.Label() == d.Label() ==> c == d
    ensures forall k :: 0 <= k < CategoryCount ==> CategoryAt(k).Rank() == k
  {
    forall s | IsCategoryLabel(s)
      ensures exists c: Category :: c.Label() == s
    {
      if s == "classes" { assert Classes.Label() == s; }
      else if s == "interfaces" { assert Interfaces.Label() == s; }
      else if s == "enums" { assert Enums.Label() == s; }
      else if s == "functions" { assert Functions.Label() == s; }
      else { assert Types.Label() == s; }
    }
    forall c: Category, d: Category | c.Label() == d.Label()
      ensures c == d
    {
      assert c.Label()[0] == d.Label()[0];
    }
  }
}

=== FILE: docs.dfy ===
/**
 * The lookup service of the documentation site: resolving a slug to a node,
 * the flat search index and the grouped sidebar, each computed from the
 * document root handed in by the caller.
 */
module Docs {
  import opened DocModel

  const DocsRoot: string := "/docs"

  // ---------------------------------------------------------------------
  // findNode
  // ---------------------------------------------------------------------

  /** The index of the first child named exactly `name`, if any. */
  function FirstNamed(children: seq<DocNode>, name: string): (r: Option<nat>)
    ensures r.Some? ==> r.value < |children| && children[r.value].name == name
    ensures r.Some? ==> forall j :: 0 <= j < r.value ==> children[j].name != name
    ensures r.None? <==> forall j :: 0 <= j < |children| ==> children[j].name != name
  {
    if children == [] then None
    else if children[0].name == name then Some(0)
    else
      match FirstNamed(children[1..], name)
      case None => None
      case Some(i) => Some(i + 1)
  }

  /** Descends from `node` through `children`, one segment per level, first name match wins. */
  function Resolve(node: DocNode, path: seq<string>): Option<DocNode>
    decreases |path|
  {
    if path == [] then Some(node)
    else
      match node.children
      case None => None
      case Some(cs) =>
        match FirstNamed(cs, path[0])
        case None => None
        case Some(i) => Resolve(cs[i], path[1..])
  }

  /** What `findNode(slug)` returns for the document `root` (`None` is `null`). */
  function Lookup(root: DocNode, slug: seq<string>): Option<DocNode>
  {
    if slug == [] then Some(root)
    else if IsCategoryLabel(slug[0]) then
      if |slug| == 1 then Some(root) else Resolve(root, slug[1..])
    else Resolve(root, slug)
  }

  method FindNode(root: DocNode, slug: seq<string>) returns (r: Option<DocNode>)
    ensures r == Lookup(root, slug)
    ensures slug == [] ==> r == Some(root)
    ensures |slug| == 1 && IsCategoryLabel(slug[0]) ==> r == Some(root)
  {
    if |slug| == 0 {
      return Some(root);
    }
    var searchSlug := slug;
    if IsCategoryLabel(slug[0]) {
      if |slug| == 1 {
        return Some(root);
      }
      searchSlug := slug[1..];
    }
    var current := root;
    var i := 0;
    while i < |searchSlug|
      invariant 0 <= i <= |searchSlug|
      invariant Resolve(current, searchSlug[i..]) == Lookup(root, slug)
    {
      var part := searchSlug[i];
      if current.children.None? {
        return None;
      }
      var found := FirstNamed(current.children.value, part);
      if found.None? {
        return None;
      }
      assert searchSlug[i..][1..] == searchSlug[i + 1..];
      current := current.children.value[found.value];
      i := i + 1;
    }
    return Some(current);
  }

  /** Resolving a path in two pieces is resolving the first, then the second from there. */
  lemma {:induction false} ResolveAppend(node: DocNode, p: seq<string>, q: seq<string>)
    ensures Resolve(node, p + q) ==
      match Resolve(node, p)
      case None => None
      case Some(mid) => Resolve(mid, q)
    decreases |p|
  {
    if p == [] {
      assert p + q == q;
    } else {
      assert (p + q)[0] == p[0];
      assert (p + q)[1..] == p[1..] + q;
      match node.children
      case None =>
      case Some(cs) =>
        match FirstNamed(cs, p[0])
        case None =>
        case Some(i) => ResolveAppend(cs[i], p[1..], q);
    }
  }

  /** A node found by a non-empty path is named by the path's last segment. */
  lemma {:induction false} ResolveNamesLastSegment(node: DocNode, path: seq<string>)
    requires path != [] && Resolve(node, path).Some?
    ensures Resolve(node, path).value.name == path[|path| - 1]
    decreases |path|
  {
    var cs := node.children.value;
    var i := FirstNamed(cs, path[0]).value;
    if |path| > 1 {
      ResolveNamesLastSegment(cs[i], path[1..]);
    }
  }

  /** One step goes to the first child with that name, or fails when none has it. */
  lemma ResolveStep(node: DocNode, segment: string, rest: seq<string>)
    ensures node.children.None? ==> Resolve(node, [segment] + rest) == None
    ensures (forall c :: c in ChildrenOf(node) ==> c.name != segment) ==>
      Resolve(node, [segment] + rest) == None
    ensures forall i ::
      (0 <= i < |ChildrenOf(node)| && ChildrenOf(node)[i].name == segment &&
       forall j :: 0 <= j < i ==> ChildrenOf(node)[j].name != segment) ==>
        Resolve(node, [segment] + rest) == Resolve(ChildrenOf(node)[i], rest)
  {
    var path := [segment] + rest;
    assert path[0] == segment;
    assert path[1..] == rest;
    if node.children.Some? {
      var cs := node.children.value;
      if (forall c :: c in cs ==> c.name != segment) {
        forall j | 0 <= j < |cs| ensures cs[j].name != segment {
          assert cs[j] in cs;
        }
      }
      forall i | 0 <= i < |cs| && cs[i].name == segment && (forall j :: 0 <= j < i ==> cs[j].name != segment)
        ensures Resolve(node, path) == Resolve(cs[i], rest)
      {
        var first := FirstNamed(cs, segment);
        assert first.Some?;
        assert first.value == i;
      }
    }
  }

  /** Resolution reads only `children`: signatures, parameters, id and kind play no part. */
  lemma ResolveReadsOnlyChildren(a: DocNode, b: DocNode, path: seq<string>)
    requires a.children == b.children && path != []
    ensures Resolve(a, path) == Resolve(b, path)
  {
  }

  /** A leading category label is dropped once; the rest resolves from the root. */
  lemma LookupStripsCategory(root: DocNode, slug: seq<string>)
    requires |slug| >= 2 && IsCategoryLabel(slug[0])
    ensures Lookup(root, slug) == Resolve(root, slug[1..])
    ensures !IsCategoryLabel(slug[1]) ==> Lookup(root, slug) == Lookup(root, slug[1..])
  {
  }

  /** Stripping is not transparent when the next segment is itself a category label. */
  lemma LookupStripIsNotAlwaysTransparent()
    ensures var root := DocNode(0, "root", Project, Some([]), None, None);
      Lookup(root, ["classes", "types"]) == None &&
      Lookup(root, ["types"]) == Some(root)
  {
    var root := DocNode(0, "root", Project, Some([]), None, None);
    assert ["classes", "types"][1..] == ["types"];
    assert ["types"][1..] == [];
  }

  /** A found node for a slug that is not a bare category is named by the last segment. */
  lemma {:induction false} LookupNamesLastSegment(root: DocNode, slug: seq<string>)
    requires slug != [] && !(|slug| == 1 && IsCategoryLabel(slug[0]))
    requires Lookup(root, slug).Some?
    ensures Lookup(root, slug).value.name == slug[|slug| - 1]
  {
    if IsCategoryLabel(slug[0]) {
      ResolveNamesLastSegment(root, slug[1..]);
    } else {
      ResolveNamesLastSegment(root, slug);
    }
  }

  /** Sibling names are pairwise distinct. */
  predicate UniqueNames(nodes: seq<DocNode>)
  {
    forall i, j :: 0 <= i < j < |nodes| ==> nodes[i].name != nodes[j].name
  }

  /**
   * `[category, name]` for a root child named `name` finds a root child of that
   * name (the first such), whatever the category; with distinct sibling names
   * it finds that very child.
   */
  lemma LookupCategoryAndName(root: DocNode, segment: string, k: nat)
    requires IsCategoryLabel(segment)
    requires k < |ChildrenOf(root)|
    ensures var cs := ChildrenOf(root);
      var r := Lookup(root, [segment, cs[k].name]);
      r.Some? && r.value in cs && r.value.name == cs[k].name &&
      (UniqueNames(cs) ==> r == Some(cs[k]))
  {
    var cs := ChildrenOf(root);
    var slug := [segment, cs[k].name];
    assert slug[0] == segment;
    assert slug[1..] == [cs[k].name] == [cs[k].name] + [];
    ResolveStep(root, cs[k].name, []);
    var i := FirstNamed(cs, cs[k].name).value;
    assert Lookup(root, slug) == Resolve(root, [cs[k].name] + []);
    assert Resolve(root, [cs[k].name] + []) == Resolve(cs[i], []);
    if UniqueNames(cs) {
      assert !(i < k);
      assert i == k;
    }
  }

  // ---------------------------------------------------------------------
  // getAllSearchItems
  // ---------------------------------------------------------------------

  datatype SearchItem = SearchItem(title: string, path: string, kind: int, kindString: string)

  const MemberKinds: set<Kind> := {Method, Property}
  const SearchedKinds: set<Kind> := {Class, Interface, Function, TypeAlias}

  function MemberEntry(owner: string, member: DocNode): SearchItem
  {
    SearchItem(owner + "." + member.name, DocsRoot + "/classes/" + owner + "#" + member.name,
      member.kind.Value(), if member.kind == Method then "Method" else "Property")
  }

  /** The entries for the Method and Property children among `members`. */
  function MemberEntries(owner: string, members: seq<DocNode>): seq<SearchItem>
  {
    if members == [] then []
    else
      var last := members[|members| - 1];
      MemberEntries(owner, members[..|members| - 1]) +
        (if last.kind in MemberKinds then [MemberEntry(owner, last)] else [])
  }

  /** What `traverse(node)` pushes. */
  function EntriesFor(node: DocNode): seq<SearchItem>
  {
    if node.kind == Class then
      [SearchItem(node.name, DocsRoot + "/classes/" + node.name, node.kind.Value(), "Class")] +
        MemberEntries(node.name, ChildrenOf(node))
    else if node.kind == Interface then
      [SearchItem(node.name, DocsRoot + "/interfaces/" + node.name, node.kind.Value(), "Interface")]
    else if node.kind == Function then
      [SearchItem(node.name, DocsRoot + "/functions/" + node.name, node.kind.Value(), "Function")]
    else if node.kind == TypeAlias then
      [SearchItem(node.name, DocsRoot + "/types/" + node.name, node.kind.Value(), "Type")]
    else []
  }

  function Entries(nodes: seq<DocNode>): seq<SearchItem>
  {
    if nodes == [] then []
    else Entries(nodes[..|nodes| - 1]) + EntriesFor(nodes[|nodes| - 1])
  }

  /** What `getAllSearchItems()` returns for the document `root`. */
  function SearchItems(root: DocNode): seq<SearchItem>
  {
    match root.children
    case None => []
    case Some(cs) => Entries(cs)
  }

  /** The closure `traverse`: appends the entries of one root child to `items`. */
  method Traverse(node: DocNode, items: seq<SearchItem>) returns (items': seq<SearchItem>)
    ensures items' == items + EntriesFor(node)
  {
    items' := items;
    if node.kind == Class {
      items' := items' + [SearchItem(node.name, DocsRoot + "/classes/" + node.name, node.kind.Value(), "Class")];
      var base := items';
      var members := ChildrenOf(node);
      for k := 0 to |members|
        invariant items' == base + MemberEntries(node.name, members[..k])
      {
        var child := members[k];
        assert members[..k + 1][..k] == members[..k];
        if child.kind == Method || child.kind == Property {
          items' := items' + [MemberEntry(node.name, child)];
        }
      }
      assert members[..|members|] == members;
    } else if node.kind == Interface {
      items' := items' + [SearchItem(node.name, DocsRoot + "/interfaces/" + node.name, node.kind.Value(), "Interface")];
    } else if node.kind == Function {
      items' := items' + [SearchItem(node.name, DocsRoot + "/functions/" + node.name, node.kind.Value(), "Function")];
    } else if node.kind == TypeAlias {
      items' := items' + [SearchItem(node.name, DocsRoot + "/types/" + node.name, node.kind.Value(), "Type")];
    }
  }

  method GetAllSearchItems(root: DocNode) returns (items: seq<SearchItem>)
    ensures items == SearchItems(root)
    ensures root.children.None? ==> items == []
  {
    items := [];
    if root.children.None? {
      return;
    }
    var cs := root.children.value;
    for i := 0 to |cs|
      invariant items == Entries(cs[..i])
    {
      assert cs[..i + 1][..i] == cs[..i];
      items := Traverse(cs[i], items);
    }
    assert cs[..|cs|] == cs;
  }

  /** The member entries are the Method/Property children, in child order. */
  lemma {:induction false} MemberEntriesAreMembers(owner: string, members: seq<DocNode>)
    ensures |MemberEntries(owner, members)| == |OfKinds(members, MemberKinds)|
    ensures forall j :: 0 <= j < |MemberEntries(owner, members)| ==>
      MemberEntries(owner, members)[j] == MemberEntry(owner, OfKinds(members, MemberKinds)[j])
  {
    if members != [] {
      MemberEntriesAreMembers(owner, members[..|members| - 1]);
    }
  }

  /** Sum over the given classes of their Method/Property children. */
  function MemberTotal(classes: seq<DocNode>): nat
  {
    if classes == [] then 0
    else MemberTotal(classes[..|classes| - 1]) + |OfKinds(ChildrenOf(classes[|classes| - 1]), MemberKinds)|
  }

  lemma EntriesForCount(n: DocNode)
    ensures |EntriesFor(n)| ==
      (if n.kind in SearchedKinds then 1 else 0) +
      (if n.kind == Class then |OfKinds(ChildrenOf(n), MemberKinds)| else 0)
  {
    MemberEntriesAreMembers(n.name, ChildrenOf(n));
  }

  lemma {:induction false} EntriesCount(nodes: seq<DocNode>)
    ensures |Entries(nodes)| == |OfKinds(nodes, SearchedKinds)| + MemberTotal(OfKind(nodes, Class))
  {
    if nodes != [] {
      var init := nodes[..|nodes| - 1];
      var last := nodes[|nodes| - 1];
      EntriesCount(init);
      EntriesForCount(last);
      assert Entries(nodes) == Entries(init) + EntriesFor(last);
      assert OfKinds(nodes, SearchedKinds) ==
        OfKinds(init, SearchedKinds) + (if last.kind in SearchedKinds then [last] else []);
      var cl := OfKind(nodes, Class);
      assert cl == OfKind(init, Class) + (if last.kind in {Class} then [last] else []);
      if last.kind == Class {
        assert cl[..|cl| - 1] == OfKind(init, Class);
        assert MemberTotal(cl) == MemberTotal(OfKind(init, Class)) + |OfKinds(ChildrenOf(last), MemberKinds)|;
      } else {
        assert cl == OfKind(init, Class);
      }
    }
  }

  /**
   * One search item per top-level Class, Interface, Function and TypeAlias,
   * plus one per Method/Property child of a top-level Class; nothing else.
   */
  lemma SearchItemCount(root: DocNode)
    ensures root.children.None? ==> SearchItems(root) == []
    ensures |SearchItems(root)| ==
      |OfKinds(ChildrenOf(root), SearchedKinds)| + MemberTotal(OfKind(ChildrenOf(root), Class))
  {
    EntriesCount(ChildrenOf(root));
  }

  /** The index of a list of root children is the indexes of its pieces, concatenated. */
  lemma {:induction false} EntriesAppend(a: seq<DocNode>, b: seq<DocNode>)
    ensures Entries(a + b) == Entries(a) + Entries(b)
  {
    if b != [] {
      var b' := b[..|b| - 1];
      assert (a + b)[..|a + b| - 1] == a + b';
      assert (a + b)[|a + b| - 1] == b[|b| - 1];
      EntriesAppend(a, b');
    } else {
      assert a + b == a;
    }
  }

  /**
   * The entries of root child `i` sit between those of its earlier and its
   * later siblings: each child contributes one contiguous block, in child order.
   */
  lemma SearchItemsSplit(root: DocNode, i: nat)
    requires i < |ChildrenOf(root)|
    ensures var cs := ChildrenOf(root);
      SearchItems(root) == Entries(cs[..i]) + EntriesFor(cs[i]) + Entries(cs[i + 1..])
  {
    var cs := ChildrenOf(root);
    assert cs == cs[..i] + [cs[i]] + cs[i + 1..];
    EntriesAppend(cs[..i] + [cs[i]], cs[i + 1..]);
    EntriesAppend(cs[..i], [cs[i]]);
    assert [cs[i]][..0] == [];
  }

  /**
   * A class's block is its own entry at `/docs/classes/<name>` followed by one
   * `<Class>.<member>` entry per Method or Property child, in child order, all
   * routed to the class page with the member name as fragment.
   */
  lemma ClassEntries(n: DocNode)
    requires n.kind == Class
    ensures var ms := OfKinds(ChildrenOf(n), MemberKinds);
      var e := EntriesFor(n);
      && |e| == 1 + |ms|
      && e[0] == SearchItem(n.name, "/docs/classes/" + n.name, 128, "Class")
      && forall j :: 0 <= j < |ms| ==>
           e[1 + j] == SearchItem(n.name + "." + ms[j].name, "/docs/classes/" + n.name + "#" + ms[j].name,
             ms[j].kind.Value(), if ms[j].kind == Method then "Method" else "Property")
  {
    MemberEntriesAreMembers(n.name, ChildrenOf(n));
  }

  /**
   * An interface, function or type alias has a single entry at
   * `/docs/<category>/<name>`; no other kind of root child has any.
   */
  lemma OtherEntries(n: DocNode)
    requires n.kind != Class
    ensures n.kind == Interface ==>
      EntriesFor(n) == [SearchItem(n.name, "/docs/interfaces/" + n.name, 256, "Interface")]
    ensures n.kind == Function ==>
      EntriesFor(n) == [SearchItem(n.name, "/docs/functions/" + n.name, 64, "Function")]
    ensures n.kind == TypeAlias ==>
      EntriesFor(n) == [SearchItem(n.name, "/docs/types/" + n.name, 4194304, "Type")]
    ensures n.kind !in SearchedKinds ==> EntriesFor(n) == []
  {
    assert DocsRoot + "/interfaces/" == "/docs/interfaces/";
    assert DocsRoot + "/functions/" == "/docs/functions/";
    assert DocsRoot + "/types/" == "/docs/types/";
  }

  /** The head entry of a searchable node routes to `/docs/<category>/<name>`. */
  lemma SearchEntryPath(n: DocNode, c: Category)
    requires c != Enums && c.EntityKind() == n.kind
    ensures EntriesFor(n) != [] && EntriesFor(n)[0].path == "/docs/" + c.Label() + "/" + n.name
  {
    match c
    case Classes => assert "/docs/" + c.Label() + "/" == DocsRoot + "/classes/";
    case Interfaces => assert "/docs/" + c.Label() + "/" == DocsRoot + "/interfaces/";
    case Functions => assert "/docs/" + c.Label() + "/" == DocsRoot + "/functions/";
    case Types => assert "/docs/" + c.Label() + "/" == DocsRoot + "/types/";
  }

  /**
   * `findNode` maps the slug `[label, name]` of a searchable root child's head
   * entry back to a node of that name (to the child itself when sibling names
   * are distinct). That slug is the entry's route split at `/` only for names
   * without `/`.
   */
  lemma SearchEntryFindsNode(root: DocNode, i: nat, c: Category)
    requires i < |ChildrenOf(root)|
    requires c != Enums && c.EntityKind() == ChildrenOf(root)[i].kind
    ensures var cs := ChildrenOf(root);
      var r := Lookup(root, [c.Label(), cs[i].name]);
      && EntriesFor(cs[i]) != []
      && EntriesFor(cs[i])[0].path == "/docs/" + c.Label() + "/" + cs[i].name
      && r.Some? && r.value.name == cs[i].name
      && (UniqueNames(cs) ==> r == Some(cs[i]))
  {
    SearchEntryPath(ChildrenOf(root)[i], c);
    LabelIsCategoryLabel(c);
    LookupCategoryAndName(root, c.Label(), i);
  }

  // ---------------------------------------------------------------------
  // getSidebarData
  // ---------------------------------------------------------------------

  datatype SidebarItem = SidebarItem(title: string, path: string, children: Option<seq<SidebarItem>>, kind: Option<int>)

  /** The hand-written group that always comes first. */
  const GeneralGroup: SidebarItem := SidebarItem("General", "/docs", Some([
    SidebarItem("Getting Started", "/docs/guide/getting-started", None, Some(0)),
    SidebarItem("Changelog", "/docs/changelog", None, Some(0))
  ]), None)

  /** The sidebar link of one bucket node: titled by its name, routed below its category, with its kind. */
  function Link(category: Category, node: DocNode): SidebarItem
  {
    SidebarItem(node.name, "/docs/" + category.Label() + "/" + node.name, None, Some(node.kind.Value()))
  }

  /** The links of the bucket nodes, one per node, in order. */
  function Links(category: Category, nodes: seq<DocNode>): (r: seq<SidebarItem>)
    ensures |r| == |nodes|
  {
    seq(|nodes|, j requires 0 <= j < |nodes| => Link(category, nodes[j]))
  }

  /** The group of one category over the root children `cs`. */
  function Group(category: Category, cs: seq<DocNode>): SidebarItem
  {
    SidebarItem(category.Title(), "/docs/" + category.Label(),
      Some(Links(category, OfKind(cs, category.EntityKind()))), None)
  }

  /** `bucket.length > 0` for the bucket of category `c`. */
  predicate NonEmpty(c: Category, cs: seq<DocNode>)
  {
    OfKind(cs, c.EntityKind()) != []
  }

  /** The group a category contributes: its own when its bucket is not empty, none otherwise. */
  function GroupIf(c: Category, cs: seq<DocNode>): seq<SidebarItem>
  {
    if NonEmpty(c, cs) then [Group(c, cs)] else []
  }

  /** The groups the pushes of the first `n` categories (in visiting order) contribute. */
  function GroupsBelow(cs: seq<DocNode>, n: nat): seq<SidebarItem>
    requires n <= CategoryCount
  {
    if n == 0 then [] else GroupsBelow(cs, n - 1) + GroupIf(CategoryAt(n - 1), cs)
  }

  /** What `getSidebarData()` returns for the document `root`. */
  function Sidebar(root: DocNode): seq<SidebarItem>
  {
    match root.children
    case None => []
    case Some(cs) => [GeneralGroup] + GroupsBelow(cs, CategoryCount)
  }

  method GetSidebarData(root: DocNode) returns (items: seq<SidebarItem>)
    ensures items == Sidebar(root)
    ensures root.children.None? ==> items == []
  {
    if root.children.None? {
      return [];
    }
    var cs := root.children.value;
    items := [GeneralGroup];

    var classes := OfKind(cs, Class);
    var interfaces := OfKind(cs, Interface);
    var functions := OfKind(cs, Function);
    var typeAliases := OfKind(cs, TypeAlias);
    var enums := OfKind(cs, Enum);

    items := PushGroupIfAny(items, Classes, classes, cs);
    assert items == [GeneralGroup] + GroupsBelow(cs, 1);
    items := PushGroupIfAny(items, Interfaces, interfaces, cs);
    assert items == [GeneralGroup] + GroupsBelow(cs, 2);
    items := PushGroupIfAny(items, Enums, enums, cs);
    assert items == [GeneralGroup] + GroupsBelow(cs, 3);
    items := PushGroupIfAny(items, Functions, functions, cs);
    assert items == [GeneralGroup] + GroupsBelow(cs, 4);
    items := PushGroupIfAny(items, Types, typeAliases, cs);
  }

  /**
   * One conditional push of `getSidebarData`: when the bucket of category `c`
   * among the root children `cs` is not empty, its group (the category's
   * title, its route and the bucket's links) is appended.
   */
  method PushGroupIfAny(items: seq<SidebarItem>, c: Category, bucket: seq<DocNode>, ghost cs: seq<DocNode>)
    returns (items': seq<SidebarItem>)
    requires bucket == OfKind(cs, c.EntityKind())
    ensures items' == items + GroupIf(c, cs)
  {
    items' := items;
    if |bucket| > 0 {
      items' := items' + [SidebarItem(c.Title(), "/docs/" + c.Label(), Some(Links(c, bucket)), None)];
    }
  }

  /** The first `n` categories (in visiting order) whose bucket is not empty. */
  function PresentBelow(cs: seq<DocNode>, n: nat): seq<Category>
    requires n <= CategoryCount
  {
    if n == 0 then []
    else PresentBelow(cs, n - 1) + (if NonEmpty(CategoryAt(n - 1), cs) then [CategoryAt(n - 1)] else [])
  }

  /** The groups of the given categories, in that order. */
  function Groups(cs: seq<DocNode>, categories: seq<Category>): (r: seq<SidebarItem>)
    ensures |r| == |categories|
  {
    seq(|categories|, i requires 0 <= i < |categories| => Group(categories[i], cs))
  }

  lemma GroupsSnoc(cs: seq<DocNode>, p: seq<Category>, c: Category)
    ensures Groups(cs, p + [c]) == Groups(cs, p) + [Group(c, cs)]
  {
    var l := Groups(cs, p + [c]);
    var r := Groups(cs, p) + [Group(c, cs)];
    forall i | 0 <= i < |l| ensures l[i] == r[i] {
      if i < |p| {
        assert (p + [c])[i] == p[i];
      }
    }
  }

  /** The pushes contribute exactly one group per category with a non-empty bucket. */
  lemma {:induction false} GroupsBelowPresent(cs: seq<DocNode>, n: nat)
    requires n <= CategoryCount
    ensures GroupsBelow(cs, n) == Groups(cs, PresentBelow(cs, n))
  {
    if n > 0 {
      GroupsBelowPresent(cs, n - 1);
      var p := PresentBelow(cs, n - 1);
      var c := CategoryAt(n - 1);
      if NonEmpty(c, cs) {
        GroupsSnoc(cs, p, c);
      }
    }
  }

  /** The present categories are exactly those before rank `n` whose bucket is not empty. */
  lemma {:induction false} PresentBelowMembers(cs: seq<DocNode>, n: nat)
    requires n <= CategoryCount
    ensures forall c: Category :: c in PresentBelow(cs, n) <==> c.Rank() < n && NonEmpty(c, cs)
  {
    if n > 0 {
      PresentBelowMembers(cs, n - 1);
      var c := CategoryAt(n - 1);
      assert c.Rank() == n - 1;
    }
  }

  /** Strictly increasing rank, that is, visiting order without repeats. */
  predicate RankOrdered(p: seq<Category>)
  {
    forall i, j :: 0 <= i < j < |p| ==> p[i].Rank() < p[j].Rank()
  }

  /** The present categories come in strictly increasing rank. */
  lemma {:induction false} PresentBelowOrdered(cs: seq<DocNode>, n: nat)
    requires n <= CategoryCount
    ensures forall i :: 0 <= i < |PresentBelow(cs, n)| ==> PresentBelow(cs, n)[i].Rank() < n
    ensures RankOrdered(PresentBelow(cs, n))
  {
    if n > 0 {
      PresentBelowOrdered(cs, n - 1);
      var q := PresentBelow(cs, n - 1);
      var c := CategoryAt(n - 1);
      assert c.Rank() == n - 1;
      if NonEmpty(c, cs) {
        var p := q + [c];
        assert PresentBelow(cs, n) == p;
        forall i, j | 0 <= i < j < |p| ensures p[i].Rank() < p[j].Rank() {
          assert p[i] == q[i];
          if j < |q| {
            assert p[j] == q[j];
          }
        }
      } else {
        assert PresentBelow(cs, n) == q;
      }
    }
  }

  /** A group is titled and routed by its category and links each member of its bucket. */
  lemma GroupShape(c: Category, cs: seq<DocNode>)
    ensures var g := Group(c, cs);
      var bucket := OfKind(cs, c.EntityKind());
      && g.title == c.Title()
      && g.path == "/docs/" + c.Label()
      && g.children.Some?
      && |g.children.value| == |bucket|
      && forall j :: 0 <= j < |bucket| ==>
           g.children.value[j] ==
             SidebarItem(bucket[j].name, "/docs/" + c.Label() + "/" + bucket[j].name, None, Some(c.EntityKind().Value()))
  {
    var bucket := OfKind(cs, c.EntityKind());
    OfKindsMembers(cs, {c.EntityKind()});
    forall j | 0 <= j < |bucket| ensures bucket[j].kind == c.EntityKind() {
      assert bucket[j] in bucket;
    }
  }

  /**
   * With a `children` list, the sidebar is "General" (Getting Started, then
   * Changelog) followed by the groups of exactly the categories whose bucket
   * is not empty, in the order Classes, Interfaces, Enums, Functions, Types.
   * Without one, the sidebar is empty.
   */
  lemma SidebarLayout(root: DocNode)
    ensures root.children.None? ==> Sidebar(root) == []
    ensures root.children.Some? ==>
      var cs := root.children.value;
      var present := PresentBelow(cs, CategoryCount);
      && Sidebar(root) == [GeneralGroup] + Groups(cs, present)
      && (forall c: Category :: c in present <==> OfKind(cs, c.EntityKind()) != [])
      && RankOrdered(present)
  {
    if root.children.Some? {
      var cs := root.children.value;
      GroupsBelowPresent(cs, CategoryCount);
      PresentBelowMembers(cs, CategoryCount);
      PresentBelowOrdered(cs, CategoryCount);
    }
  }

  /** The `i`-th group after "General" is that of the `i`-th present category. */
  lemma SidebarGroupAt(root: DocNode, i: nat)
    requires root.children.Some?
    requires i < |PresentBelow(root.children.value, CategoryCount)|
    ensures var cs := root.children.value;
      var c := PresentBelow(cs, CategoryCount)[i];
      && 1 + i < |Sidebar(root)|
      && Sidebar(root)[1 + i] == Group(c, cs)
      && OfKind(cs, c.EntityKind()) != []
  {
    var cs := root.children.value;
    var present := PresentBelow(cs, CategoryCount);
    SidebarLayout(root);
    assert present[i] in present;
  }

  /**
   * `findNode` maps the slug `[label, name]` of every node in a category
   * bucket back to a node of that name; to that very node when sibling names
   * are distinct. For a name without `/`, that slug is what the route of its
   * sidebar link splits into.
   */
  lemma BucketSlugFindsNode(root: DocNode, c: Category, j: nat)
    requires root.children.Some?
    requires j < |OfKind(root.children.value, c.EntityKind())|
    ensures var cs := root.children.value;
      var n := OfKind(cs, c.EntityKind())[j];
      var r := Lookup(root, [c.Label(), n.name]);
      && r.Some? && r.value.name == n.name
      && (UniqueNames(cs) ==> r == Some(n))
  {
    var cs := root.children.value;
    var bucket := OfKind(cs, c.EntityKind());
    OfKindsMembers(cs, {c.EntityKind()});
    assert bucket[j] in bucket;
    var k :| 0 <= k < |cs| && cs[k] == bucket[j];
    LabelIsCategoryLabel(c);
    LookupCategoryAndName(root, c.Label(), k);
  }
}

=== FILE: static_pages.dfy ===
/**
 * The build-time generator that writes one Next.js page module per
 * documented category and per documented entity, so the site can be
 * exported statically. The file system is a map from path to content plus
 * the set of created directories; `path.join` is concatenation with `/`.
 */
module StaticPages {
  import opened DocModel
  import Docs

  // ---------------------------------------------------------------------
  // Page templates
  // ---------------------------------------------------------------------

  /** Matches the character class `[a-zA-Z0-9]`. */
  predicate IsAlnum(ch: char)
  {
    ('a' <= ch <= 'z') || ('A' <= ch <= 'Z') || ('0' <= ch <= '9')
  }

  /** Removes every character that is not an ASCII letter or digit, keeping the others in order. */
  function StripNonAlnum(s: string): string
  {
    if s == [] then ""
    else (if IsAlnum(s[0]) then [s[0]] else []) + StripNonAlnum(s[1..])
  }

  /** The stripped text is no longer than the input and holds only letters and digits. */
  lemma {:induction false} StripShape(s: string)
    ensures |StripNonAlnum(s)| <= |s|
    ensures forall k :: 0 <= k < |StripNonAlnum(s)| ==> IsAlnum(StripNonAlnum(s)[k])
  {
    if s != [] {
      StripShape(s[1..]);
      var head := if IsAlnum(s[0]) then [s[0]] else [];
      var r := StripNonAlnum(s);
      assert r == head + StripNonAlnum(s[1..]);
      forall k | 0 <= k < |r| ensures IsAlnum(r[k]) {
        if k >= |head| {
          assert r[k] == StripNonAlnum(s[1..])[k - |head|];
        }
      }
    }
  }

  /** A name made only of letters and digits is kept as it is. */
  lemma {:induction false} StripKeepsAlnum(s: string)
    requires forall k :: 0 <= k < |s| ==> IsAlnum(s[k])
    ensures StripNonAlnum(s) == s
  {
    if s != [] {
      StripKeepsAlnum(s[1..]);
      assert s == [s[0]] + s[1..];
    }
  }

  /** Stripping works character by character: it distributes over concatenation. */
  lemma {:induction false} StripAppend(a: string, b: string)
    ensures StripNonAlnum(a + b) == StripNonAlnum(a) + StripNonAlnum(b)
  {
    if a != [] {
      assert (a + b)[0] == a[0];
      assert (a + b)[1..] == a[1..] + b;
      StripAppend(a[1..], b);
    } else {
      assert a + b == b;
    }
  }

  /**
   * A single character is kept exactly when it is a letter or digit and is
   * otherwise removed, not replaced; with `StripAppend` this fixes the result
   * for every string.
   */
  lemma StripOneCharacter(ch: char)
    ensures StripNonAlnum([ch]) == if IsAlnum(ch) then [ch] else []
  {
    assert [ch][1..] == [];
  }

  /** Stripping twice is stripping once. */
  lemma StripIdempotent(s: string)
    ensures StripNonAlnum(StripNonAlnum(s)) == StripNonAlnum(s)
  {
    StripShape(s);
    StripKeepsAlnum(StripNonAlnum(s));
  }

  /** Upper-casing on ASCII: lower-case letters move to upper case, others stay. */
  function ToUpperAscii(ch: char): (u: char)
    ensures 'a' <= ch <= 'z' ==> 'A' <= u <= 'Z' && u as int - ch as int == 'A' as int - 'a' as int
    ensures !('a' <= ch <= 'z') ==> u == ch
  {
    if 'a' <= ch <= 'z' then (ch as int - 'a' as int + 'A' as int) as char else ch
  }

  /** The first character upper-cased, the rest unchanged; empty stays empty. */
  function Capitalize(s: string): string
  {
    if s == [] then "" else [ToUpperAscii(s[0])] + s[1..]
  }

  /** Capitalising keeps the length, upper-cases the first character and keeps the rest. */
  lemma CapitalizeShape(s: string)
    ensures |Capitalize(s)| == |s|
    ensures s != [] ==> Capitalize(s)[0] == ToUpperAscii(s[0]) && Capitalize(s)[1..] == s[1..]
  {
    if s != [] {
      assert Capitalize(s)[1..] == ([ToUpperAscii(s[0])] + s[1..])[1..];
    }
  }

  /** Capitalising a category's route label gives its sidebar title. */
  lemma CapitalizedLabelIsTitle(c: Category)
    ensures Capitalize(c.Label()) == c.Title()
  {
    match c
    case Classes => assert Capitalize("classes") == "Classes";
    case Interfaces => assert Capitalize("interfaces") == "Interfaces";
    case Enums => assert Capitalize("enums") == "Enums";
    case Functions => assert Capitalize("functions") == "Functions";
    case Types => assert Capitalize("types") == "Types";
  }

  /** The component identifier of an item page: the sanitised name, then `Page`. */
  function ItemComponent(name: string): string
  {
    StripNonAlnum(name) + "Page"
  }

  /** An item identifier is the name's letters and digits followed by `Page`: alphanumeric throughout. */
  lemma ItemComponentShape(name: string)
    ensures var r := ItemComponent(name);
      && |r| >= 4 && r[..|r| - 4] == StripNonAlnum(name) && r[|r| - 4..] == "Page"
      && forall k :: 0 <= k < |r| ==> IsAlnum(r[k])
  {
    var r := ItemComponent(name);
    var stripped := StripNonAlnum(name);
    StripShape(name);
    forall k | 0 <= k < |r| ensures IsAlnum(r[k]) {
      if k < |stripped| {
        assert r[k] == stripped[k];
      } else {
        assert r[k] == "Page"[k - |stripped|];
      }
    }
  }

  /** The component identifier of a category page: the capitalised label, then `Page`. */
  function CategoryComponent(category: string): string
  {
    Capitalize(category) + "Page"
  }

  /** A category identifier keeps the label's length, upper-cases its first letter and ends in `Page`. */
  lemma CategoryComponentShape(category: string)
    ensures var r := CategoryComponent(category);
      && |r| == |category| + 4 && r[|category|..] == "Page"
      && (category != [] ==> r[0] == ToUpperAscii(category[0]) && r[1..|category|] == category[1..])
  {
    CapitalizeShape(category);
    var r := CategoryComponent(category);
    assert r[..|category|] == Capitalize(category);
    if category != [] {
      assert r[1..|category|] == Capitalize(category)[1..];
    }
  }

  /** A category's page identifier is its sidebar title followed by `Page`. */
  lemma CategoryComponentIsTitle(c: Category)
    ensures CategoryComponent(c.Label()) == c.Title() + "Page"
  {
    CapitalizedLabelIsTitle(c);
  }

  /**
   * The text `['a', 'b']` that the templates build for the parts of a slug,
   * each part put between single quotes without escaping. It reads back as
   * the array of those parts only when no part holds `'`, `\` or a line
   * terminator.
   */
  function SlugLiteral(parts: seq<string>): string
  {
    "[" + QuotedList(parts) + "]"
  }

  function QuotedList(parts: seq<string>): string
  {
    if parts == [] then ""
    else if |parts| == 1 then "'" + parts[0] + "'"
    else "'" + parts[0] + "', " + QuotedList(parts[1..])
  }

  /** The fixed text of a page module: before the component name, between it and the slug, after the slug. */
  const ModuleHead: string := "import DocPageContent from '@/components/DocPageContent';\n\nexport default function "
  const ModuleMiddle: string := "() {\n  return <DocPageContent slug={"
  const ModuleTail: string := "} />;\n}\n"

  /** The module text around a component identifier and a slug literal. */
  function PageModule(component: string, slug: string): string
  {
    ModuleHead + component + ModuleMiddle + slug + ModuleTail
  }

  /** `createPageContent(category, name)`. */
  function ItemPageContent(category: string, name: string): string
  {
    PageModule(ItemComponent(name), "['" + category + "', '" + name + "']")
  }

  /** `createCategoryPageContent(category)`. */
  function CategoryPageContent(category: string): string
  {
    PageModule(CategoryComponent(category), "['" + category + "']")
  }

  /** The literal `['<category>', '<name>']` of the item template is the slug `[category, name]`. */
  lemma ItemSlugLiteral(category: string, name: string)
    ensures SlugLiteral([category, name]) == "['" + category + "', '" + name + "']"
  {
    var q := "'" + name + "'";
    assert [category, name][1..] == [name];
    assert QuotedList([name]) == q;
    assert QuotedList([category, name]) == "'" + category + "', " + q;
    assert "[" + ("'" + category + "', " + q) + "]" == "['" + category + "', '" + name + "']";
  }

  /** The literal `['<category>']` of the category template is the slug `[category]`. */
  lemma CategorySlugLiteral(category: string)
    ensures SlugLiteral([category]) == "['" + category + "']"
  {
    assert QuotedList([category]) == "'" + category + "'";
    assert "[" + ("'" + category + "'") + "]" == "['" + category + "']";
  }

  /** An item page renders the slug `[category, name]`; a category page renders `[category]`. */
  lemma PagesEmbedSlugs(category: string, name: string)
    ensures ItemPageContent(category, name) == PageModule(ItemComponent(name), SlugLiteral([category, name]))
    ensures CategoryPageContent(category) == PageModule(CategoryComponent(category), SlugLiteral([category]))
  {
    ItemSlugLiteral(category, name);
    CategorySlugLiteral(category);
  }

  /**
   * Names are not escaped: the page of an entity named `x', 'y` carries the
   * literal of the three-part slug `[category, "x", "y"]`, not `[category, name]`.
   */
  lemma QuotedNameSplitsSlug(category: string)
    ensures ItemPageContent(category, "x', 'y") == PageModule(ItemComponent("x', 'y"), SlugLiteral([category, "x", "y"]))
    ensures SlugLiteral([category, "x', 'y"]) == SlugLiteral([category, "x", "y"])
  {
    var parts := [category, "x", "y"];
    assert parts[1..] == ["x", "y"] && parts[1..][1..] == ["y"];
    assert QuotedList(["x", "y"]) == "'x', 'y'";
    assert QuotedList(parts) == "'" + category + "', 'x', 'y'";
    ItemSlugLiteral(category, "x', 'y");
    assert "['" + category + "', '" + "x', 'y" + "']" == "[" + ("'" + category + "', 'x', 'y'") + "]";
  }

  /**
   * The slug an item page embeds for the `j`-th entity of category `c` leads
   * `findNode` back to a root child of that name; to that very entity when
   * sibling names are distinct.
   */
  lemma ItemPageSlugFindsNode(root: DocNode, c: Category, j: nat)
    requires root.children.Some?
    requires j < |OfKind(root.children.value, c.EntityKind())|
    ensures var cs := root.children.value;
      var n := OfKind(cs, c.EntityKind())[j];
      var r := Docs.Lookup(root, [c.Label(), n.name]);
      && ItemPageContent(c.Label(), n.name) == PageModule(ItemComponent(n.name), SlugLiteral([c.Label(), n.name]))
      && r.Some? && r.value.name == n.name
      && (Docs.UniqueNames(cs) ==> r == Some(n))
  {
    PagesEmbedSlugs(c.Label(), OfKind(root.children.value, c.EntityKind())[j].name);
    Docs.BucketSlugFindsNode(root, c, j);
  }

  // ---------------------------------------------------------------------
  // Paths
  // ---------------------------------------------------------------------

  /** The entry `name` below the directory `parent`, as `path.join` forms it for a plain name. */
  function SubDir(parent: string, name: string): string
  {
    parent + "/" + name
  }

  /** The directory of a category: its label below the docs directory. */
  function CategoryDir(docsDir: string, c: Category): string
  {
    SubDir(docsDir, c.Label())
  }

  /** The directory of an entity: its name below its category's directory. */
  function ItemDir(docsDir: string, c: Category, name: string): string
  {
    SubDir(CategoryDir(docsDir, c), name)
  }

  /** The page module file inside a directory. */
  function PagePath(dir: string): string
  {
    dir + "/page.tsx"
  }

  lemma LabelHasNoSlash(c: Category)
    ensures '/' !in c.Label()
  {
  }

  lemma PrefixCancel(p: string, x: string, y: string)
    requires p + x == p + y
    ensures x == y
  {
    assert x == (p + x)[|p|..];
    assert y == (p + y)[|p|..];
  }

  lemma SuffixCancel(x: string, y: string, s: string)
    requires x + s == y + s
    ensures x == y
  {
    assert |x| == |y|;
    assert x == (x + s)[..|x|];
    assert y == (y + s)[..|y|];
  }

  /** Two `<segment>/<rest>` strings whose segments have no `/` split at the same place. */
  lemma SlashSplit(a: string, b: string, x: string, y: string)
    requires '/' !in a && '/' !in b
    requires a + "/" + x == b + "/" + y
    ensures a == b && x == y
  {
    var l := a + "/" + x;
    var r := b + "/" + y;
    assert l[|a|] == '/' && r[|b|] == '/';
    assert |a| == |b|;
    assert a == l[..|a|];
    assert b == r[..|b|];
    assert x == l[|a| + 1..];
    assert y == r[|b| + 1..];
  }

  /** Page paths are equal only for equal directories. */
  lemma PagePathInjective(u: string, v: string)
    requires PagePath(u) == PagePath(v)
    ensures u == v
  {
    SuffixCancel(u, v, "/page.tsx");
  }

  /** Category directories differ for different categories and from every item directory. */
  lemma CategoryDirDistinct(d: string, c: Category, c': Category, name: string)
    ensures CategoryDir(d, c) == CategoryDir(d, c') ==> c == c'
    ensures CategoryDir(d, c) != ItemDir(d, c', name)
  {
    CategoryLabels();
    LabelHasNoSlash(c);
    LabelHasNoSlash(c');
    if CategoryDir(d, c) == CategoryDir(d, c') {
      assert d + "/" + c.Label() == (d + "/") + c.Label();
      assert d + "/" + c'.Label() == (d + "/") + c'.Label();
      PrefixCancel(d + "/", c.Label(), c'.Label());
    }
    if CategoryDir(d, c) == ItemDir(d, c', name) {
      assert ItemDir(d, c', name) == (d + "/") + (c'.Label() + "/" + name);
      assert d + "/" + c.Label() == (d + "/") + c.Label();
      PrefixCancel(d + "/", c.Label(), c'.Label() + "/" + name);
      assert false;
    }
  }

  /** Item directories determine their category and name. */
  lemma ItemDirInjective(d: string, c: Category, c': Category, name: string, name': string)
    requires ItemDir(d, c, name) == ItemDir(d, c', name')
    ensures c == c' && name == name'
  {
    CategoryLabels();
    LabelHasNoSlash(c);
    LabelHasNoSlash(c');
    assert ItemDir(d, c, name) == (d + "/") + (c.Label() + "/" + name);
    assert ItemDir(d, c', name') == (d + "/") + (c'.Label() + "/" + name');
    PrefixCancel(d + "/", c.Label() + "/" + name, c'.Label() + "/" + name');
    SlashSplit(c.Label(), c'.Label(), name, name');
  }

  // ---------------------------------------------------------------------
  // The planned pages
  // ---------------------------------------------------------------------

  /** A page the generator writes: a category index or the page of one entity. */
  datatype Page = CategoryIndex(category: Category) | EntityPage(category: Category, name: string)

  /** The directory `ensureDir` creates for the page. */
  function PageDir(d: string, p: Page): string
  {
    match p
    case CategoryIndex(c) => CategoryDir(d, c)
    case EntityPage(c, name) => ItemDir(d, c, name)
  }

  /** The template text written to the page. */
  function PageContent(p: Page): string
  {
    match p
    case CategoryIndex(c) => CategoryPageContent(c.Label())
    case EntityPage(c, name) => ItemPageContent(c.Label(), name)
  }

  /** Pages for the same directory are the same page. */
  lemma PageDirInjective(d: string, p: Page, q: Page)
    requires PageDir(d, p) == PageDir(d, q)
    ensures p == q
  {
    if p.CategoryIndex? && q.CategoryIndex? {
      CategoryDirDistinct(d, p.category, q.category, "");
    } else if p.CategoryIndex? {
      CategoryDirDistinct(d, p.category, q.category, q.name);
    } else if q.CategoryIndex? {
      CategoryDirDistinct(d, q.category, p.category, p.name);
    } else {
      ItemDirInjective(d, p.category, q.category, p.name, q.name);
    }
  }

  /** The entity pages of the bucket `items` of category `c`, in order. */
  function EntityPages(c: Category, items: seq<DocNode>): (r: seq<Page>)
    ensures |r| == |items|
  {
    seq(|items|, k requires 0 <= k < |items| => EntityPage(c, items[k].name))
  }

  /** The pages of bucket `items` of category `c`: none when empty, else its index, then its entities. */
  function BlockPages(c: Category, items: seq<DocNode>): seq<Page>
  {
    if items == [] then [] else [CategoryIndex(c)] + EntityPages(c, items)
  }

  /** The pages of category `c` among the root children `cs`. */
  function CategoryPages(cs: seq<DocNode>, c: Category): seq<Page>
  {
    BlockPages(c, OfKind(cs, c.EntityKind()))
  }

  /** The pages of the first `n` categories, in visiting order. */
  function PagesBelow(cs: seq<DocNode>, n: nat): seq<Page>
    requires n <= CategoryCount
  {
    if n == 0 then [] else PagesBelow(cs, n - 1) + CategoryPages(cs, CategoryAt(n - 1))
  }

  /** Every page `generatePages` writes for root children `cs`, in write order. */
  function PlannedPages(cs: seq<DocNode>): seq<Page>
  {
    PagesBelow(cs, CategoryCount)
  }

  /** The number of pages of the first `n` categories: 1 plus the bucket size per non-empty bucket. */
  function PageTotal(cs: seq<DocNode>, n: nat): nat
    requires n <= CategoryCount
  {
    if n == 0 then 0
    else
      var items := OfKind(cs, CategoryAt(n - 1).EntityKind());
      PageTotal(cs, n - 1) + (if items == [] then 0 else 1 + |items|)
  }

  /** A block: empty for an empty bucket, else its index first, then its entities' pages in bucket order. */
  lemma BlockPagesAt(c: Category, items: seq<DocNode>)
    ensures items == [] ==> BlockPages(c, items) == []
    ensures items != [] ==>
      var block := BlockPages(c, items);
      && |block| == 1 + |items|
      && block[0] == CategoryIndex(c)
      && forall k :: 0 <= k < |items| ==> block[1 + k] == EntityPage(c, items[k].name)
  {
    if items != [] {
      var block := BlockPages(c, items);
      var entities := EntityPages(c, items);
      assert block == [CategoryIndex(c)] + entities;
      forall k | 0 <= k < |items| ensures block[1 + k] == EntityPage(c, items[k].name) {
        assert block[1 + k] == entities[k];
      }
    }
  }

  /** Every page of a block belongs to its category: the index of a non-empty bucket, or one of its entities. */
  lemma BlockPagesMembers(c: Category, items: seq<DocNode>, p: Page)
    requires p in BlockPages(c, items)
    ensures p.category == c && items != []
    ensures p.EntityPage? ==> exists k :: 0 <= k < |items| && items[k].name == p.name
  {
    var block := BlockPages(c, items);
    BlockPagesAt(c, items);
    var i :| 0 <= i < |block| && block[i] == p;
    if i > 0 {
      assert p == EntityPage(c, items[i - 1].name);
    }
  }

  /** The planned page list has exactly the counted number of pages. */
  lemma {:induction false} PagesBelowCount(cs: seq<DocNode>, n: nat)
    requires n <= CategoryCount
    ensures |PagesBelow(cs, n)| == PageTotal(cs, n)
  {
    if n > 0 {
      PagesBelowCount(cs, n - 1);
      var c := CategoryAt(n - 1);
      var items := OfKind(cs, c.EntityKind());
      BlockPagesAt(c, items);
      assert |CategoryPages(cs, c)| == if items == [] then 0 else 1 + |items|;
      assert PagesBelow(cs, n) == PagesBelow(cs, n - 1) + CategoryPages(cs, c);
    }
  }

  /** The reported total is the number of pages written. */
  lemma PageTotalCountsPages(cs: seq<DocNode>)
    ensures PageTotal(cs, CategoryCount) == |PlannedPages(cs)|
  {
    PagesBelowCount(cs, CategoryCount);
  }

  /** The pages of the first `n + 1` categories extend those of the first `n` by one block. */
  lemma PagesBelowStep(cs: seq<DocNode>, n: nat)
    requires n < CategoryCount
    ensures PagesBelow(cs, n + 1) == PagesBelow(cs, n) + CategoryPages(cs, CategoryAt(n))
    ensures CategoryAt(n).Rank() == n
  {
  }

  /** A category index is planned exactly for the categories before rank `n` with a non-empty bucket. */
  lemma {:induction false} IndexPagesPlanned(cs: seq<DocNode>, n: nat)
    requires n <= CategoryCount
    ensures forall c: Category :: CategoryIndex(c) in PagesBelow(cs, n) <==>
      c.Rank() < n && OfKind(cs, c.EntityKind()) != []
  {
    if n > 0 {
      IndexPagesPlanned(cs, n - 1);
      var here := CategoryAt(n - 1);
      PagesBelowStep(cs, n - 1);
      var items := OfKind(cs, here.EntityKind());
      var block := CategoryPages(cs, here);
      BlockPagesAt(here, items);
      forall c: Category ensures CategoryIndex(c) in block <==> c == here && OfKind(cs, c.EntityKind()) != [] {
        if CategoryIndex(c) in block {
          BlockPagesMembers(here, items, CategoryIndex(c));
        }
        if c == here && items != [] {
          assert block[0] == CategoryIndex(c);
        }
      }
    }
  }

  /** The page of every entity in the bucket of a category before rank `n` is planned. */
  lemma {:induction false} EntityPagesPlanned(cs: seq<DocNode>, n: nat, c: Category)
    requires n <= CategoryCount && c.Rank() < n
    ensures forall k :: 0 <= k < |OfKind(cs, c.EntityKind())| ==>
      EntityPage(c, OfKind(cs, c.EntityKind())[k].name) in PagesBelow(cs, n)
  {
    PagesBelowStep(cs, n - 1);
    if c.Rank() < n - 1 {
      EntityPagesPlanned(cs, n - 1, c);
    } else {
      var items := OfKind(cs, c.EntityKind());
      BlockPagesAt(c, items);
      var block := CategoryPages(cs, c);
      forall k | 0 <= k < |items| ensures EntityPage(c, items[k].name) in PagesBelow(cs, n) {
        assert block[1 + k] in block;
      }
    }
  }

  /** Every planned entity page is that of an entity in its category's bucket. */
  lemma {:induction false} EntityPagesOnlyPlanned(cs: seq<DocNode>, n: nat, p: Page)
    requires n <= CategoryCount && p.EntityPage? && p in PagesBelow(cs, n)
    ensures p.category.Rank() < n
    ensures exists k :: 0 <= k < |OfKind(cs, p.category.EntityKind())| && OfKind(cs, p.category.EntityKind())[k].name == p.name
  {
    var here := CategoryAt(n - 1);
    PagesBelowStep(cs, n - 1);
    if p in PagesBelow(cs, n - 1) {
      EntityPagesOnlyPlanned(cs, n - 1, p);
    } else {
      assert p in CategoryPages(cs, here);
      BlockPagesMembers(here, OfKind(cs, here.EntityKind()), p);
    }
  }

  // ---------------------------------------------------------------------
  // The file map
  // ---------------------------------------------------------------------

  /** Ensuring directory `dir`, then writing `content` to its page module file. */
  datatype FileWrite = FileWrite(dir: string, content: string)

  /** The write that produces page `p` below `d`. */
  function PageWrite(d: string, p: Page): FileWrite
  {
    FileWrite(PageDir(d, p), PageContent(p))
  }

  /** The writes of the pages `ps`, in order. */
  function Writes(d: string, ps: seq<Page>): (r: seq<FileWrite>)
    ensures |r| == |ps|
  {
    seq(|ps|, i requires 0 <= i < |ps| => PageWrite(d, ps[i]))
  }

  lemma WritesAppend(d: string, a: seq<Page>, b: seq<Page>)
    ensures Writes(d, a + b) == Writes(d, a) + Writes(d, b)
  {
    var l := Writes(d, a + b);
    var r := Writes(d, a) + Writes(d, b);
    forall i | 0 <= i < |l| ensures l[i] == r[i] {
      if i < |a| {
        assert (a + b)[i] == a[i];
      } else {
        assert (a + b)[i] == b[i - |a|];
      }
    }
  }

  /** Writing in order to the file map `m`. */
  function Apply(m: map<string, string>, ws: seq<FileWrite>): map<string, string>
  {
    if ws == [] then m
    else
      var w := ws[|ws| - 1];
      Apply(m, ws[..|ws| - 1])[PagePath(w.dir) := w.content]
  }

  /** The directories the writes ensure. */
  function DirsOf(ws: seq<FileWrite>): set<string>
  {
    if ws == [] then {} else DirsOf(ws[..|ws| - 1]) + {ws[|ws| - 1].dir}
  }

  /** Writing `a + b` is writing `a`, then `b`. */
  lemma {:induction false} ApplyAppend(m: map<string, string>, a: seq<FileWrite>, b: seq<FileWrite>)
    ensures Apply(m, a + b) == Apply(Apply(m, a), b)
    ensures DirsOf(a + b) == DirsOf(a) + DirsOf(b)
  {
    if b != [] {
      var b' := b[..|b| - 1];
      assert (a + b)[..|a + b| - 1] == a + b';
      assert (a + b)[|a + b| - 1] == b[|b| - 1];
      ApplyAppend(m, a, b');
    } else {
      assert a + b == a;
    }
  }

  /** Writes to the same directory carry the same content. */
  predicate Consistent(ws: seq<FileWrite>)
  {
    forall i, j :: 0 <= i < |ws| && 0 <= j < |ws| && ws[i].dir == ws[j].dir ==> ws[i].content == ws[j].content
  }

  /** The writes of distinct pages go to distinct directories, so page writes never disagree. */
  lemma WritesConsistent(d: string, ps: seq<Page>)
    ensures Consistent(Writes(d, ps))
  {
    var ws := Writes(d, ps);
    forall i, j | 0 <= i < |ws| && 0 <= j < |ws| && ws[i].dir == ws[j].dir
      ensures ws[i].content == ws[j].content
    {
      PageDirInjective(d, ps[i], ps[j]);
    }
  }

  /** With consistent writes, every written directory's page holds its content afterwards. */
  lemma {:induction false} ApplyWritten(m: map<string, string>, ws: seq<FileWrite>, i: nat)
    requires Consistent(ws) && i < |ws|
    ensures PagePath(ws[i].dir) in Apply(m, ws)
    ensures Apply(m, ws)[PagePath(ws[i].dir)] == ws[i].content
  {
    var init := ws[..|ws| - 1];
    var last := ws[|ws| - 1];
    if PagePath(last.dir) == PagePath(ws[i].dir) {
      PagePathInjective(last.dir, ws[i].dir);
    } else {
      assert i < |init|;
      assert Consistent(init) by {
        forall a, b | 0 <= a < |init| && 0 <= b < |init| && init[a].dir == init[b].dir
          ensures init[a].content == init[b].content
        {
          assert init[a] == ws[a] && init[b] == ws[b];
        }
      }
      assert init[i] == ws[i];
      ApplyWritten(m, init, i);
    }
  }

  /** The writes touch exactly their pages' paths; other files keep their content. */
  lemma {:induction false} ApplyDomain(m: map<string, string>, ws: seq<FileWrite>)
    ensures forall f :: f in Apply(m, ws) <==> f in m || exists i :: 0 <= i < |ws| && f == PagePath(ws[i].dir)
    ensures forall f :: f in m && (forall i :: 0 <= i < |ws| ==> f != PagePath(ws[i].dir)) ==>
      Apply(m, ws)[f] == m[f]
  {
    if ws != [] {
      var init := ws[..|ws| - 1];
      ApplyDomain(m, init);
      forall f | f in Apply(m, ws)
        ensures f in m || exists i :: 0 <= i < |ws| && f == PagePath(ws[i].dir)
      {
        if f !in m && f != PagePath(ws[|ws| - 1].dir) {
          var i :| 0 <= i < |init| && f == PagePath(init[i].dir);
          assert ws[i] == init[i];
        }
      }
      forall f | f in m || exists i :: 0 <= i < |ws| && f == PagePath(ws[i].dir)
        ensures f in Apply(m, ws)
      {
        if f !in m && f != PagePath(ws[|ws| - 1].dir) {
          var i :| 0 <= i < |ws| && f == PagePath(ws[i].dir);
          assert init[i] == ws[i];
        }
      }
      forall f | f in m && (forall i :: 0 <= i < |ws| ==> f != PagePath(ws[i].dir))
        ensures Apply(m, ws)[f] == m[f]
      {
        forall i | 0 <= i < |init| ensures f != PagePath(init[i].dir) {
          assert init[i] == ws[i];
        }
      }
    }
  }

  /** The written map is the old map overridden by the writes' own map. */
  lemma {:induction false} ApplyOverrides(m: map<string, string>, ws: seq<FileWrite>)
    ensures Apply(m, ws) == m + Apply(map[], ws)
  {
    if ws != [] {
      ApplyOverrides(m, ws[..|ws| - 1]);
    }
  }

  /** Writing the same files again changes nothing: generation is idempotent. */
  lemma ApplyIdempotent(m: map<string, string>, ws: seq<FileWrite>)
    ensures Apply(Apply(m, ws), ws) == Apply(m, ws)
  {
    ApplyOverrides(m, ws);
    ApplyOverrides(Apply(m, ws), ws);
    var a := Apply(map[], ws);
    assert (m + a) + a == m + a;
  }

  /** The directories a list of writes ensures are exactly the writes' directories. */
  lemma {:induction false} DirsOfMembers(ws: seq<FileWrite>)
    ensures forall dir :: dir in DirsOf(ws) <==> exists i :: 0 <= i < |ws| && ws[i].dir == dir
  {
    if ws != [] {
      var init := ws[..|ws| - 1];
      assert DirsOf(ws) == DirsOf(init) + {ws[|ws| - 1].dir};
      DirsOfMembers(init);
      forall dir | dir in DirsOf(ws) ensures exists i :: 0 <= i < |ws| && ws[i].dir == dir {
        if dir != ws[|ws| - 1].dir {
          assert dir in DirsOf(init);
          var i :| 0 <= i < |init| && init[i].dir == dir;
          assert ws[i] == init[i];
        }
      }
      forall dir | exists i :: 0 <= i < |ws| && ws[i].dir == dir ensures dir in DirsOf(ws) {
        var i :| 0 <= i < |ws| && ws[i].dir == dir;
        if i < |init| {
          assert init[i] == ws[i];
        }
      }
    }
  }

  /** What `generatePages` writes below `d` for root children `cs`, in order. */
  function PlannedWrites(d: string, cs: seq<DocNode>): seq<FileWrite>
  {
    Writes(d, PlannedPages(cs))
  }

  /** Each page's path holds that page's template once all pages are written. */
  lemma PageWritten(m: map<string, string>, d: string, ps: seq<Page>, i: nat)
    requires i < |ps|
    ensures PagePath(PageDir(d, ps[i])) in Apply(m, Writes(d, ps))
    ensures Apply(m, Writes(d, ps))[PagePath(PageDir(d, ps[i]))] == PageContent(ps[i])
  {
    WritesConsistent(d, ps);
    ApplyWritten(m, Writes(d, ps), i);
  }

  /**
   * After generation, `<d>/<category>/page.tsx` holds the category template
   * for each category whose bucket is not empty.
   */
  lemma GeneratedIndexFiles(m: map<string, string>, d: string, cs: seq<DocNode>, c: Category)
    requires OfKind(cs, c.EntityKind()) != []
    ensures var f := Apply(m, PlannedWrites(d, cs));
      PagePath(CategoryDir(d, c)) in f && f[PagePath(CategoryDir(d, c))] == CategoryPageContent(c.Label())
  {
    var ps := PlannedPages(cs);
    IndexPagesPlanned(cs, CategoryCount);
    var i :| 0 <= i < |ps| && ps[i] == CategoryIndex(c);
    PageWritten(m, d, ps, i);
  }

  /**
   * After generation, `<d>/<category>/<name>/page.tsx` holds the item
   * template for each entity `name` in the bucket of the category.
   */
  lemma GeneratedEntityFiles(m: map<string, string>, d: string, cs: seq<DocNode>, c: Category, k: nat)
    requires k < |OfKind(cs, c.EntityKind())|
    ensures var f := Apply(m, PlannedWrites(d, cs));
      var name := OfKind(cs, c.EntityKind())[k].name;
      PagePath(ItemDir(d, c, name)) in f && f[PagePath(ItemDir(d, c, name))] == ItemPageContent(c.Label(), name)
  {
    var ps := PlannedPages(cs);
    var name := OfKind(cs, c.EntityKind())[k].name;
    EntityPagesPlanned(cs, CategoryCount, c);
    var i :| 0 <= i < |ps| && ps[i] == EntityPage(c, name);
    PageWritten(m, d, ps, i);
  }

  /**
   * Generation adds no file beyond the planned ones: a file that was not
   * there before is the page of a non-empty category or of an entity in a
   * category's bucket.
   */
  lemma GeneratedOnlyPlanned(m: map<string, string>, d: string, cs: seq<DocNode>, f: string)
    requires f in Apply(m, PlannedWrites(d, cs)) && f !in m
    ensures
      || (exists c: Category :: OfKind(cs, c.EntityKind()) != [] && f == PagePath(CategoryDir(d, c)))
      || (exists c: Category, k :: 0 <= k < |OfKind(cs, c.EntityKind())| &&
            f == PagePath(ItemDir(d, c, OfKind(cs, c.EntityKind())[k].name)))
  {
    var ps := PlannedPages(cs);
    var ws := PlannedWrites(d, cs);
    ApplyDomain(m, ws);
    var i :| 0 <= i < |ws| && f == PagePath(ws[i].dir);
    var p := ps[i];
    assert ws[i].dir == PageDir(d, p);
    assert p in PagesBelow(cs, CategoryCount);
    if p.CategoryIndex? {
      IndexPagesPlanned(cs, CategoryCount);
    } else {
      EntityPagesOnlyPlanned(cs, CategoryCount, p);
    }
  }

  /** The directories the writes of pages `ps` ensure are exactly the pages' directories. */
  lemma WritesDirs(d: string, ps: seq<Page>)
    ensures forall dir :: dir in DirsOf(Writes(d, ps)) <==> exists p :: p in ps && dir == PageDir(d, p)
  {
    var ws := Writes(d, ps);
    DirsOfMembers(ws);
    forall dir ensures dir in DirsOf(ws) <==> exists p :: p in ps && dir == PageDir(d, p) {
      if dir in DirsOf(ws) {
        var i :| 0 <= i < |ws| && ws[i].dir == dir;
        assert ws[i].dir == PageDir(d, ps[i]);
        assert ps[i] in ps;
      }
      if exists p :: p in ps && dir == PageDir(d, p) {
        var p :| p in ps && dir == PageDir(d, p);
        var i :| 0 <= i < |ps| && ps[i] == p;
        assert ws[i].dir == PageDir(d, p);
      }
    }
  }

  /** After generation the created directories are exactly those of the planned pages. */
  lemma GeneratedDirs(d: string, cs: seq<DocNode>)
    ensures forall dir :: dir in DirsOf(PlannedWrites(d, cs)) <==>
      exists p :: p in PlannedPages(cs) && dir == PageDir(d, p)
  {
    WritesDirs(d, PlannedPages(cs));
  }

  /** A category's directory is created exactly when its bucket is not empty. */
  lemma GeneratedCategoryDirs(d: string, cs: seq<DocNode>, c: Category)
    ensures CategoryDir(d, c) in DirsOf(PlannedWrites(d, cs)) <==> OfKind(cs, c.EntityKind()) != []
  {
    GeneratedDirs(d, cs);
    IndexPagesPlanned(cs, CategoryCount);
    if CategoryDir(d, c) in DirsOf(PlannedWrites(d, cs)) {
      var p :| p in PlannedPages(cs) && CategoryDir(d, c) == PageDir(d, p);
      PageDirInjective(d, CategoryIndex(c), p);
    }
    if OfKind(cs, c.EntityKind()) != [] {
      assert PageDir(d, CategoryIndex(c)) == CategoryDir(d, c);
    }
  }

  // ---------------------------------------------------------------------
  // The file system and the generator
  // ---------------------------------------------------------------------

  /** The part of the file system the generator touches. */
  class Disk {
    var files: map<string, string>
    var dirs: set<string>

    constructor(files0: map<string, string>, dirs0: set<string>)
      ensures files == files0 && dirs == dirs0
    {
      files := files0;
      dirs := dirs0;
    }

    /** `ensureDir`: create the directory unless it exists. */
    method EnsureDir(dir: string)
      modifies this
      ensures dirs == old(dirs) + {dir}
      ensures files == old(files)
    {
      if dir !in dirs {
        dirs := dirs + {dir};
      }
    }

    /** Writes `content` to the page module file of `dir`, which must exist. */
    method WritePage(dir: string, content: string)
      requires dir in dirs
      modifies this
      ensures files == old(files)[PagePath(dir) := content]
      ensures dirs == old(dirs)
    {
      files := files[PagePath(dir) := content];
    }
  }

  /** The file map after the page of category `category` and the pages of the first `k` entities of its bucket. */
  function BlockFiles(m: map<string, string>, d: string, category: string, items: seq<DocNode>, k: nat): map<string, string>
    requires k <= |items|
  {
    if k == 0 then m[PagePath(SubDir(d, category)) := CategoryPageContent(category)]
    else
      var name := items[k - 1].name;
      BlockFiles(m, d, category, items, k - 1)[PagePath(SubDir(SubDir(d, category), name)) := ItemPageContent(category, name)]
  }

  /** The directories ensured for the category and its first `k` entities. */
  function BlockDirs(d: string, category: string, items: seq<DocNode>, k: nat): set<string>
    requires k <= |items|
  {
    if k == 0 then {SubDir(d, category)}
    else BlockDirs(d, category, items, k - 1) + {SubDir(SubDir(d, category), items[k - 1].name)}
  }

  /** The writes of the category page of `category` and of its first `k` entities, as the loop issues them. */
  function BlockWrites(d: string, category: string, items: seq<DocNode>, k: nat): (r: seq<FileWrite>)
    requires k <= |items|
    ensures |r| == k + 1
  {
    [FileWrite(SubDir(d, category), CategoryPageContent(category))] +
      seq(k, i requires 0 <= i < k => FileWrite(SubDir(SubDir(d, category), items[i].name), ItemPageContent(category, items[i].name)))
  }

  /** Writing a block page by page is applying its writes in order. */
  lemma {:induction false} BlockFilesAreWrites(m: map<string, string>, d: string, category: string, items: seq<DocNode>, k: nat)
    requires k <= |items|
    ensures BlockFiles(m, d, category, items, k) == Apply(m, BlockWrites(d, category, items, k))
  {
    var ws := BlockWrites(d, category, items, k);
    if k == 0 {
      assert ws[..0] == [];
    } else {
      var name := items[k - 1].name;
      assert ws[k] == FileWrite(SubDir(SubDir(d, category), name), ItemPageContent(category, name));
      assert ws[..k] == BlockWrites(d, category, items, k - 1);
      assert Apply(m, ws) == Apply(m, ws[..k])[PagePath(ws[k].dir) := ws[k].content];
      BlockFilesAreWrites(m, d, category, items, k - 1);
    }
  }

  /** Ensuring a block's directories one by one gives the directories of its writes. */
  lemma {:induction false} BlockDirsAreWrites(d: string, category: string, items: seq<DocNode>, k: nat)
    requires k <= |items|
    ensures BlockDirs(d, category, items, k) == DirsOf(BlockWrites(d, category, items, k))
  {
    var ws := BlockWrites(d, category, items, k);
    if k == 0 {
      assert ws[..0] == [];
    } else {
      assert ws[k].dir == SubDir(SubDir(d, category), items[k - 1].name);
      assert ws[..k] == BlockWrites(d, category, items, k - 1);
      BlockDirsAreWrites(d, category, items, k - 1);
    }
  }

  /** The writes of a non-empty bucket's block, issued for its route label, are those of its planned pages. */
  lemma BlockWritesArePlanned(d: string, c: Category, items: seq<DocNode>)
    requires items != []
    ensures BlockWrites(d, c.Label(), items, |items|) == Writes(d, BlockPages(c, items))
  {
    var ws := BlockWrites(d, c.Label(), items, |items|);
    var ps := BlockPages(c, items);
    BlockPagesAt(c, items);
    forall i | 0 <= i < |ws| ensures ws[i] == PageWrite(d, ps[i]) {
      if i > 0 {
        assert ps[i] == EntityPage(c, items[i - 1].name);
      }
    }
  }

  /** The file map after one pass of the category loop: unchanged for an empty bucket, else the whole block written. */
  function CategoryFiles(m: map<string, string>, d: string, category: string, items: seq<DocNode>): map<string, string>
  {
    if items == [] then m else BlockFiles(m, d, category, items, |items|)
  }

  /** The directories one pass of the category loop ensures. */
  function CategoryDirs(d: string, category: string, items: seq<DocNode>): set<string>
  {
    if items == [] then {} else BlockDirs(d, category, items, |items|)
  }

  /** One pass of the category loop applies exactly the writes of the bucket's block. */
  lemma CategoryFilesAreWrites(m: map<string, string>, d: string, c: Category, items: seq<DocNode>)
    ensures CategoryFiles(m, d, c.Label(), items) == Apply(m, Writes(d, BlockPages(c, items)))
    ensures CategoryDirs(d, c.Label(), items) == DirsOf(Writes(d, BlockPages(c, items)))
  {
    if items != [] {
      BlockFilesAreWrites(m, d, c.Label(), items, |items|);
      BlockDirsAreWrites(d, c.Label(), items, |items|);
      BlockWritesArePlanned(d, c, items);
    }
  }

  /** The writes of the first `n` categories. */
  function WritesBelow(d: string, cs: seq<DocNode>, n: nat): seq<FileWrite>
    requires n <= CategoryCount
  {
    Writes(d, PagesBelow(cs, n))
  }

  /**
   * Writing the pages of `n + 1` categories is writing those of `n`, then
   * one pass of the loop over the next category, which counts nothing for
   * an empty bucket and 1 plus the bucket size otherwise.
   */
  lemma WritesBelowStep(m: map<string, string>, d: string, cs: seq<DocNode>, n: nat)
    requires n < CategoryCount
    ensures var c := CategoryAt(n);
      var items := OfKind(cs, c.EntityKind());
      && Apply(m, WritesBelow(d, cs, n + 1)) == CategoryFiles(Apply(m, WritesBelow(d, cs, n)), d, c.Label(), items)
      && DirsOf(WritesBelow(d, cs, n + 1)) == DirsOf(WritesBelow(d, cs, n)) + CategoryDirs(d, c.Label(), items)
      && PageTotal(cs, n + 1) == PageTotal(cs, n) + (if items == [] then 0 else 1 + |items|)
  {
    var c := CategoryAt(n);
    PagesBelowStep(cs, n);
    WritesAppend(d, PagesBelow(cs, n), CategoryPages(cs, c));
    ApplyAppend(m, Writes(d, PagesBelow(cs, n)), Writes(d, CategoryPages(cs, c)));
    CategoryFilesAreWrites(Apply(m, WritesBelow(d, cs, n)), d, c, OfKind(cs, c.EntityKind()));
  }

  /**
   * One pass of the category loop of `generatePages` for the entry
   * `[category, items]`: nothing for an empty bucket (the `continue`);
   * otherwise the category directory and page, then one directory and page
   * per entity. Returns the number of pages written.
   */
  method WriteCategory(disk: Disk, docsDir: string, category: string, items: seq<DocNode>)
    returns (pages: nat)
    modifies disk
    ensures disk.files == CategoryFiles(old(disk.files), docsDir, category, items)
    ensures disk.dirs == old(disk.dirs) + CategoryDirs(docsDir, category, items)
    ensures pages == if items == [] then 0 else 1 + |items|
  {
    if |items| == 0 {
      return 0;
    }
    ghost var files0 := disk.files;
    ghost var dirs0 := disk.dirs;
    var categoryDir := SubDir(docsDir, category);
    disk.EnsureDir(categoryDir);
    disk.WritePage(categoryDir, CategoryPageContent(category));
    pages := 1;
    for k := 0 to |items|
      invariant disk.files == BlockFiles(files0, docsDir, category, items, k)
      invariant disk.dirs == dirs0 + BlockDirs(docsDir, category, items, k)
      invariant pages == 1 + k
    {
      var item := items[k];
      var itemDir := SubDir(categoryDir, item.name);
      disk.EnsureDir(itemDir);
      disk.WritePage(itemDir, ItemPageContent(category, item.name));
      pages := pages + 1;
    }
  }

  /**
   * `generatePages()` for the document `root`, writing below `docsDir`.
   * Returns the page total it reports, or `None` when the root has no
   * `children` (the early return, before anything is written).
   */
  method GeneratePages(disk: Disk, docsDir: string, root: DocNode) returns (total: Option<nat>)
    modifies disk
    ensures root.children.None? ==>
      total == None && disk.files == old(disk.files) && disk.dirs == old(disk.dirs)
    ensures root.children.Some? ==>
      && total == Some(PageTotal(root.children.value, CategoryCount))
      && disk.files == Apply(old(disk.files), PlannedWrites(docsDir, root.children.value))
      && disk.dirs == old(disk.dirs) + DirsOf(PlannedWrites(docsDir, root.children.value))
  {
    if root.children.None? {
      return None;
    }
    ghost var files0 := disk.files;
    ghost var dirs0 := disk.dirs;
    var cs := root.children.value;
    var totalPages := 0;
    for r := 0 to CategoryCount
      invariant totalPages == PageTotal(cs, r)
      invariant disk.files == Apply(files0, WritesBelow(docsDir, cs, r))
      invariant disk.dirs == dirs0 + DirsOf(WritesBelow(docsDir, cs, r))
    {
      var c := CategoryAt(r);
      var items := OfKind(cs, c.EntityKind());
      var pages := WriteCategory(disk, docsDir, c.Label(), items);
      totalPages := totalPages + pages;
      WritesBelowStep(files0, docsDir, cs, r);
    }
    return Some(totalPages);
  }

  /**
   * Running the generator twice on the same disk: the second run reports the
   * same total and leaves the files and directories as the first run left
   * them.
   */
  method GenerateTwice(disk: Disk, docsDir: string, root: DocNode) returns (first: Option<nat>, second: Option<nat>)
    modifies disk
    ensures first == second
    ensures root.children.None? ==> disk.files == old(disk.files) && disk.dirs == old(disk.dirs)
    ensures root.children.Some? ==>
      && disk.files == Apply(old(disk.files), PlannedWrites(docsDir, root.children.value))
      && disk.dirs == old(disk.dirs) + DirsOf(PlannedWrites(docsDir, root.children.value))
  {
    first := GeneratePages(disk, docsDir, root);
    second := GeneratePages(disk, docsDir, root);
    if root.children.Some? {
      ApplyIdempotent(old(disk.files), PlannedWrites(docsDir, root.children.value));
    }
  }
}
